=== FILE: README.md ===
# LifeOS mobile client — a Dafny model of its stores, API adapters and UI helpers

LifeOS mobile is a React Native chat client for a personal agent
gateway. Nearly all of it is view code. Its logic sits in a few Zustand
stores, two API adapters and some inline helpers, and that is what this
project models:

- **Conversation store** (`conversation_store.dfy`, module `ConversationStore`):
  - a map from agent id to a conversation (messages plus `startedAt`/`updatedAt`);
  - append, read, clear one, clear all;
  - the "N messages (U from user)" summary;
  - the conversations touched on a given day.
- **Main chat session** (`chat_store.dfy`, module `ChatStore`):
  - the optimistic `sendMessage`, split into `BeginSend` (user message and placeholder shown, user message persisted) and `FinishSend` (placeholder filled in, or removed with an error);
  - `initSession`, `loadFromConversationStore` and `clearMessages`.
- **Gateway client** (`gateway.dfy`, module `Gateway`):
  - the status checks of `getSessions`/`spawn`/`send`;
  - the `spawn` defaults;
  - the line framer and `data: ` dispatcher of `sendAndStream`, written read by read as a method with loop invariants;
  - that method is proved equal to a whole-text reference `StreamEvents`.
- **Agent registry** (`agents.dfy`, module `Agents`):
  - the fixed catalog and lookup by id;
  - the request `chat` posts and how its reply is read;
  - the digest `syncConversation` sends.
- **Audio recording store** (`audio_store.dfy`, module `AudioStore`):
  - permission, start, stop, pause, resume and delete, as transitions driven by what expo-av answers.
- **Calendar** (`calendar_store.dfy`, `calendar_view.dfy`, `calendar_widget.dfy`):
  - Gregorian month lengths and the weekday of the 1st. These are computed from a day count that follows JavaScript `Date` month rollover.
  - the store's setters;
  - the month grid and the year view's 35-cell mini months;
  - month and year navigation;
  - the `YYYY-MM-DD` keys that select a day;
  - today's highlight and the weekday initials.
- **Chat composer and record button** (`chat_input.dfy`, `record_button.dfy`):
  - the send guard, with `String.prototype.trim`;
  - the `MM:SS` duration readout;
  - the record button's icon and caption.

Shared pieces:
- `types.dfy` (module `Types`): `Option`, `Result`, thrown values, and the `Message` and `Recording` records.
- `strings.dfy` (module `Strings`):
  - decimal rendering and parsing;
  - `padStart(2, '0')`;
  - `split`/`join` on one character;
  - `startsWith`.

Every foreign call is a parameter:
- `fetch` responses;
- `JSON.parse` (an oracle function);
- expo-av results;
- `Date.now()` and ISO clock readings.

Each store operation is one atomic pure transition.

Two behaviours of the code are easy to misread, and the model keeps them
as written:
- `sendAndStream` calls `onDone` for every `data: [DONE]` line and keeps reading. It calls `onDone` once more when the body ends. It reads `.text` from the parsed payload. `Gateway.DoneCountOnStream` states the resulting count.
- `addMessage` keeps `startedAt` only when it is non-empty: the code uses JavaScript `||`, so an empty stored value is replaced by `now`.

## Model

| member | source | states |
|---|---|---|
| ConversationStore.GetMessages | src/stores/conversationStore.ts:53-55 | An agent without a conversation reads as the empty list; otherwise its stored messages. |
| ConversationStore.AddMessage | src/stores/conversationStore.ts:33-50 | The keys grow by exactly the agent. Its messages become the old ones with the new message last. Every other conversation is untouched. `startedAt` is kept when present and non-empty, else `now`. `updatedAt` is `now`. The store invariant is preserved. |
| ConversationStore.ClearConversation | src/stores/conversationStore.ts:57-62 | Exactly the agent's key is removed, so the agent then reads as empty; every remaining conversation is unchanged. |
| ConversationStore.ClearAllConversations | src/stores/conversationStore.ts:64-66 | Afterwards every agent reads as empty, whatever the prior state. |
| ConversationStore.CountRole | src/stores/conversationStore.ts:73 | The number of messages with a role never exceeds the number of messages. |
| ConversationStore.GetConversationSummary | src/stores/conversationStore.ts:68-76 | The summary is empty exactly for an absent agent. Otherwise it is "N messages (U from user)" with N the message count and U <= N the user count. |
| ConversationStore.GetAllConversationsForDay | src/stores/conversationStore.ts:78-85 | A conversation is in the batch iff it is stored and its `startedAt` or `updatedAt` starts with the day prefix. |
| ConversationStore.CountRoleAppend | src/stores/conversationStore.ts:73 | Appending a message raises a role's count by one exactly when the message has that role. |
| ConversationStore.AddMessagesInOrder | src/stores/conversationStore.ts:44 | Messages added one after another for one agent read back in call order after the earlier ones. |
| ConversationStore.AddAfterClearStartsFresh | src/stores/conversationStore.ts:42-46 | After a clear, the next add creates a conversation holding only that message, started and updated now. |
| ConversationStore.ClearConversationIdempotent | src/stores/conversationStore.ts:57-62 | Clearing twice is clearing once; clearing an absent agent changes nothing. |
| ConversationStore.ClearAllIdempotent | src/stores/conversationStore.ts:64-66 | Clearing everything twice equals clearing it once. |
| ConversationStore.SummaryAfterAdd | src/stores/conversationStore.ts:68-76 | After an add, the summary's total is one higher, and its user count is one higher exactly for a user message. |
| ConversationStore.SummaryDeterminesTotal | src/stores/conversationStore.ts:75 | Equal summary texts have equal message totals: the leading number is unambiguous. |
| ConversationStore.AddedTodayIsInDayBatch | src/stores/conversationStore.ts:78-85 | A conversation written at a time on the given day is in that day's batch. |
| ConversationStore.StaleConversationExcluded | src/stores/conversationStore.ts:82-84 | A conversation with neither timestamp on the given day is not in the batch. |
| ChatStore.UserAndAssistantIdsDiffer | src/stores/chatStore.ts:47-58 | A `user-` id never equals an `assistant-` id, whatever the two clock readings. |
| ChatStore.LoadFromConversationStore | src/stores/chatStore.ts:36-39 | The working list becomes the stored `'main'` messages; nothing else changes. |
| ChatStore.InitSession | src/stores/chatStore.ts:30-34 | The stored history is loaded and the session is connected, idle and error-free unconditionally; the store is untouched. |
| ChatStore.BeginSend | src/stores/chatStore.ts:41-68 | The user message and an empty placeholder are appended to the list, in that order. Only the user message is added to the `'main'` conversation. Loading is on, the error cleared, and `isConnected` unchanged. |
| ChatStore.ReplaceById | src/stores/chatStore.ts:80-83 | Same length; each message with the id is replaced by the final message and every other stays in place. |
| ChatStore.RemoveById | src/stores/chatStore.ts:97-99 | Filtering by id never lengthens the list. |
| ChatStore.FinishSend | src/stores/chatStore.ts:70-100 | On a reply: the placeholder is replaced by the finished message, that one message is persisted, and the session is connected. On a throw: the error is set (the `Error` message, or "Failed to send message"), the placeholder removed, the store unchanged and `isConnected` kept. Loading ends either way. |
| ChatStore.ClearMessages | src/stores/chatStore.ts:103-106 | The list is empty, the error cleared, and the `'main'` conversation dropped from the store; the flags are kept. |
| ChatStore.RemoveByIdFresh | src/stores/chatStore.ts:98 | Removing an id no message carries leaves the list unchanged. |
| ChatStore.RemoveByIdMembers | src/stores/chatStore.ts:98 | A message survives the filter iff it was in the list with a different id. |
| ChatStore.RemoveByIdAppend | src/stores/chatStore.ts:98 | The filter distributes over concatenation, so it preserves order. |
| ChatStore.SendReplied | src/stores/chatStore.ts:41-89 | With a fresh placeholder id, a reply leaves the user message then the reply appended, both on screen and in the store. The session ends connected, idle and error-free. |
| ChatStore.SendMessage | src/stores/chatStore.ts:41-100 | Loading ends whatever the outcome. A reply stores the user message and then the reply, and leaves the session connected and error-free. A throw stores only the user message, shows the thrown message or "Failed to send message", and leaves `isConnected` as it was. |
| ChatStore.SendFailed | src/stores/chatStore.ts:90-100 | With a fresh placeholder id, a throw leaves only the user message appended, on screen and in the store. An error is shown and `isConnected` is unchanged. |
| ChatStore.UserMessageSurvives | src/stores/chatStore.ts:46-55 | Whatever the gateway does, the user message sits right after the earlier messages, both in the list and in the store. |
| ChatStore.OperationsKeepInSync | src/stores/chatStore.ts:30-106 | `initSession` and `clearMessages` make the list mirror the stored conversation, and `sendMessage` keeps that mirror on either outcome. |
| Gateway.CheckStatus | src/api/gateway.ts:19-20 | Success exactly for a 2xx status, carrying the JSON value; otherwise a failure whose message starts with the operation's text. |
| Gateway.StatusInFailureMessage | src/api/gateway.ts:19 | The failure message ends with the status, which reads back as the same number. |
| Gateway.GetSessions | src/api/gateway.ts:17-21 | Succeeds iff the status is 2xx; otherwise fails with "Failed to get sessions: …". |
| Gateway.OrDefault | src/api/gateway.ts:33-35 | A present non-empty option is kept; a missing or empty one falls back. |
| Gateway.SpawnRequestBody | src/api/gateway.ts:32-36 | Each field is the given non-empty value, or the defaults `mobile`, `anthropic/claude-sonnet-4` and `mobile`; no field is ever empty. |
| Gateway.SpawnDefaultsIdempotent | src/api/gateway.ts:33-35 | Spawning with a body's own fields gives the same body. |
| Gateway.Spawn | src/api/gateway.ts:24-40 | Succeeds iff the status is 2xx; otherwise fails with "Failed to spawn session: …". |
| Gateway.Send | src/api/gateway.ts:43-53 | Posts exactly `{sessionId, message}` and resolves with no value iff the status is 2xx; otherwise fails with "Failed to send message: …". |
| Gateway.Frame | src/api/gateway.ts:92-96 | The complete lines, each followed by a newline, plus the kept buffer, are exactly the old buffer plus the new read. No newline stays in the buffer or in any line. |
| Gateway.Dispatch | src/api/gateway.ts:98-115 | Only `data: ` lines trigger callbacks, at most one each and never an error. It is `onDone` iff the line is exactly `data: [DONE]`. Any other `data: ` line gives one chunk holding the parsed `.text` when it is non-empty, one chunk holding the raw payload when parsing throws, and nothing when `.text` is empty. |
| Gateway.DispatchLines | src/api/gateway.ts:98-115 | The loop over a read's lines makes the callbacks of every line in order. |
| Gateway.DispatchAllAppend | src/api/gateway.ts:98 | Dispatching two runs of lines is dispatching their concatenation. |
| Gateway.FrameExtends | src/api/gateway.ts:92-96 | Framing one more read extends the processed text by exactly that read. |
| Gateway.SendAndStream | src/api/gateway.ts:63-120 | Read by read, the callbacks equal those of the whole body text, whatever the read boundaries. That is one error for a non-2xx status or a missing body. Otherwise each complete line's callbacks follow, then `onDone`, or `onError` when a read threw. A `fetch` that rejects, which happens outside the `try`, makes no callback and the call rejects with the thrown value. |
| Gateway.CountDoneAppend | src/api/gateway.ts:101-102 | `onDone` counts add up over concatenated callback runs. |
| Gateway.DoneEventsMatchDoneLines | src/api/gateway.ts:101-102 | There are as many `onDone` callbacks as `data: [DONE]` lines. |
| Gateway.DoneCountOnStream | src/api/gateway.ts:101-117 | A stream that ends normally signals done once per `[DONE]` line plus once at the end. A stream whose read throws signals done only for the `[DONE]` lines. |
| Gateway.RejectedStreamIsOneError | src/api/gateway.ts:73-82 | A non-2xx status or a missing body makes exactly one callback, an error. |
| Gateway.BrokenStreamEndsInError | src/api/gateway.ts:118-120 | A throwing read ends with one error after the callbacks of the lines completed before it, none of which is an error. |
| Gateway.NoErrorsFromLines | src/api/gateway.ts:98-115 | Dispatching lines never produces an error callback. |
| Gateway.PartialLineNeverDispatched | src/api/gateway.ts:95-96 | The text after the last newline is the leftover. Bodies differing only there have the same complete lines. |
| Agents.FindIndex | src/api/agents.ts:76 | The position of the first entry with the id, or the length when none has it. |
| Agents.GetAgentConfig | src/api/agents.ts:75-77 | A found config is a catalog entry with that id; nothing is found exactly when no entry has the id. |
| Agents.CatalogIdsDistinct | src/api/agents.ts:23-58 | No two catalog entries share an id. |
| Agents.CatalogLookup | src/api/agents.ts:23-77 | Each catalog entry is found by its own id, and only `main` lacks a system prompt. |
| Agents.ChatMessages | src/api/agents.ts:83-90 | One or two entries, the last being the user's message. There are two exactly when the agent exists with a non-empty prompt, and then the first entry is that system prompt. |
| Agents.ChatRequest | src/api/agents.ts:92-105 | The agent header is `main` for every agent and the channel is `mobile`. The bearer token is sent, the user field is `dom-` plus the agent id, and the model is `clawdbot:main`. |
| Agents.SystemEntryOnlyForPromptedAgents | src/api/agents.ts:81-90 | Only the user message is sent iff the agent is `main` or unknown. |
| Agents.StatusErrorMessage | src/api/agents.ts:107-109 | The thrown message starts with "Agent error: ". |
| Agents.StatusErrorNamesStatus | src/api/agents.ts:108 | The status reads back from the thrown message after the prefix. |
| Agents.ChatResult | src/api/agents.ts:107-112 | A non-2xx status fails with that status. A 2xx reply without `choices` fails as malformed. Otherwise the result is the first choice's content, or `''` when it is missing. It fails exactly in those two cases. |
| Agents.Excerpt | src/api/agents.ts:122 | A prefix of the content of at most 100 characters; short content is kept whole. |
| Agents.DigestLine | src/api/agents.ts:122 | The line is `[role]: `, then the content's first 100 characters (Unicode scalar values), then `...`, so its length is bounded. |
| Agents.Digest | src/api/agents.ts:121-123 | An empty message list gives the empty digest, and one message gives its own line. |
| Agents.DigestAppend | src/api/agents.ts:121-123 | One more message adds a newline and that message's line to the end of the digest. |
| Agents.DigestLinesRecoverable | src/api/agents.ts:121-123 | When no role or content holds a newline, the digest splits back into one line per message, in order. |
| Agents.SyncRequest | src/api/agents.ts:125-141 | One user message to agent header `main` on channel `mobile-sync`, as user `dom-sync`, embedding the agent id and the digest. |
| Agents.SyncBody | src/api/agents.ts:137 | The part between the framing text is exactly the agent id, the four characters `":\n\n`, then the digest. With no messages it is the id and the separator alone. |
| Agents.SyncContentFraming | src/api/agents.ts:137 | The message is the fixed prefix, then the part built from the agent id and the digest, then the fixed suffix, and nothing else. With no messages that middle part is the agent id and the separator alone. |
| AudioStore.RequestPermission | src/stores/audioStore.ts:33-50 | An answer is recorded in `hasPermission`. The call returns true iff permission was granted and the audio mode was set. A grant whose audio-mode call rejects keeps `hasPermission` true, returns false and shows "Permission error" or the thrown message. A rejected permission request sets the error and returns false. Nothing else changes. |
| AudioStore.StartRecording | src/stores/audioStore.ts:52-91 | A refused permission sets "Microphone permission denied" and keeps the recording flags. With permission, a created recorder makes the state recording, unpaused, at zero seconds and error-free. A failed creation only sets the thrown message or "Recording failed", after any permission request. Recordings are untouched. |
| AudioStore.StopRecording | src/stores/audioStore.ts:93-128 | Without a recorder nothing changes. A recording is filed iff the stop succeeded with a non-empty URI. It is appended last, with id `recording-<now>`, the stop's URI, `createdAt` now, no transcription and the whole seconds of its length. The recorder and flags are reset. A missing or empty URI sets "No recording URI". A rejected stop sets the thrown message or "Stop failed". In those cases the list, the recorder and the recording flag stay. |
| AudioStore.PauseRecording | src/stores/audioStore.ts:130-136 | Only sets `isPaused`, and only with a recorder whose pause completed. |
| AudioStore.ResumeRecording | src/stores/audioStore.ts:138-144 | Only clears `isPaused`, and only with a recorder whose resume completed. |
| AudioStore.WithoutId | src/stores/audioStore.ts:148 | No kept recording has the id, and the list never grows. |
| AudioStore.DeleteRecording | src/stores/audioStore.ts:146-150 | Only the recordings change: they become the old list without the id's entries, in order, and none of them has the id. |
| AudioStore.WithoutIdMembers | src/stores/audioStore.ts:148 | A recording is kept iff it was present with another id. |
| AudioStore.WithoutIdAppend | src/stores/audioStore.ts:148 | The filter distributes over concatenation, so the rest keep their order. |
| AudioStore.DeleteIdempotent | src/stores/audioStore.ts:146-150 | Deleting an id twice is deleting it once. |
| AudioStore.TransitionsKeepCoherent | src/stores/audioStore.ts:52-150 | Every transition keeps the flags coherent: recording exactly while a recorder is held, and paused only while recording. |
| CalendarStore.DaysInMonth | src/stores/calendarStore.ts:91-93 | Always 28..31. February has 29 days exactly in leap years (divisible by 4, and not by 100 unless by 400). Every other month has 30 or 31. |
| CalendarStore.FirstDayOfMonth | src/stores/calendarStore.ts:95-97 | A weekday 0..6, a valid index into `DAYS`. |
| CalendarStore.YearLength | src/stores/calendarStore.ts:91-93 | A year is 366 days long exactly when it is a leap year, else 365. |
| CalendarStore.NextMonthStart | src/stores/calendarStore.ts:91-93 | The next month's 1st comes `DaysInMonth` days after this month's 1st. Day 0 of the next month is this month's last day, December rolling into January. |
| CalendarStore.FirstDayOfNextMonth | src/stores/calendarStore.ts:91-97 | The next month starts on weekday (first + days in month) mod 7. |
| CalendarStore.FirstDayOfJanuary | src/stores/calendarStore.ts:91-97 | January of year y+1 starts on (first weekday of December of y + 31) mod 7. |
| CalendarStore.KnownWeekdays | src/stores/calendarStore.ts:95-97 | 1 January 1970 and 1 October 2026 both come out as Thursday. |
| CalendarStore.SetViewMode | src/stores/calendarStore.ts:59 | Only the view mode changes. |
| CalendarStore.SetSelectedDate | src/stores/calendarStore.ts:61 | Only the selected date changes. |
| CalendarStore.SetSelectedMonth | src/stores/calendarStore.ts:63 | Only the selected month changes. |
| CalendarStore.SetSelectedYear | src/stores/calendarStore.ts:65 | Only the selected year changes. |
| CalendarStore.AddEvent | src/stores/calendarStore.ts:67-69 | The event is appended last; nothing else changes. |
| CalendarStore.SetDayData | src/stores/calendarStore.ts:71-73 | The key maps to the new data, the keys grow by at most that one, every other key is unchanged, and nothing else changes. |
| CalendarStore.GoToMonth | src/stores/calendarStore.ts:84-87 | Sets month and year and nothing else. |
| CalendarStore.GoToToday | src/stores/calendarStore.ts:75-82 | Selecting today is setting the date, then going to today's month and year. |
| CalendarStore.SetDayDataLastWins | src/stores/calendarStore.ts:71-73 | A later write to the same day wins; writes to different days commute. |
| CalendarStore.GoToMonthIsTwoSetters | src/stores/calendarStore.ts:84-87 | `goToMonth` equals the month and year setters applied one after the other, in either order. |
| CalendarStore.NameTablesCover | src/stores/calendarStore.ts:109-114 | `MONTHS` has 12 names and `DAYS` 7, so month and weekday indices stay in bounds. |
| CalendarView.Grid | src/components/CalendarView.tsx:111-113 | `firstDay` blank cells, then the days 1..n: the length is firstDay+n and cell firstDay+d-1 holds d. |
| CalendarView.MonthGrid | src/components/CalendarView.tsx:108-113 | The grid for a month and year has that shape for its first weekday and length, and fits in six weeks. |
| CalendarView.BuildGrid | src/components/CalendarView.tsx:111-113 | The two push loops build exactly that grid. |
| CalendarView.DayCellPosition | src/components/CalendarView.tsx:111-113 | A cell holds day d iff d is a day of the month and the cell is at firstDay+d-1. |
| CalendarView.MiniMonth | src/components/CalendarView.tsx:76 | The first min(35, length) cells of the grid, in order. |
| CalendarView.MiniMonthShows | src/components/CalendarView.tsx:67-76 | A mini month shows day d iff firstDay+d-1 < 35. |
| CalendarView.MiniMonthDropsJanuary31st2027 | src/components/CalendarView.tsx:67-76 | January 2027 starts on a Friday, so its mini month shows the 30th but not the 31st. |
| CalendarView.GoToPrevMonth | src/components/CalendarView.tsx:115-122 | Only month and year change. The month stays in 0..11 and the month count (12·year + month) drops by one, so January goes to December of the year before. |
| CalendarView.GoToNextMonth | src/components/CalendarView.tsx:124-131 | Only month and year change. The month stays in 0..11 and the month count rises by one, so December goes to January of the next year. |
| CalendarView.PrevNextInverse | src/components/CalendarView.tsx:115-131 | Next after previous, and previous after next, are the identity. |
| CalendarView.ArrowsAgreeWithDateRollover | src/components/CalendarView.tsx:115-131 | The arrows land on the month and year that `Date` rollover of month ∓ 1 gives. |
| CalendarView.GoToPrevYear | src/components/CalendarView.tsx:27 | The year drops by exactly one; nothing else changes. |
| CalendarView.GoToNextYear | src/components/CalendarView.tsx:28 | The year rises by exactly one; nothing else changes. |
| CalendarView.YearArrowsInverse | src/components/CalendarView.tsx:27-28 | The two year arrows undo each other. |
| CalendarView.SelectMonth | src/components/CalendarView.tsx:30-33 | Sets the month and switches to the month view; nothing else changes. |
| CalendarView.SelectMonthOpensTappedMonth | src/components/CalendarView.tsx:30-33 | The month view then shows the tapped month of the same year, and a second tap changes nothing. |
| CalendarView.MonthAbbreviation | src/components/CalendarView.tsx:54 | The first three letters of the month's name. |
| CalendarView.MonthAbbreviationsDistinct | src/components/CalendarView.tsx:48-54 | The twelve abbreviations are pairwise distinct. |
| CalendarView.DateKeyIsIsoDate | src/components/CalendarView.tsx:134 | For years 1000..9999 the key is `YYYY-MM-DD` (ISO 8601 extended format), whose fields read back as the year, the 1-based month and the day. |
| CalendarView.DateKey | src/components/CalendarView.tsx:134 | The key starts with the year as written and a dash. For month and day below 100, its last two dash-separated fields are two digits each and read back as the 1-based month and the day. |
| CalendarView.DateKeyInjective | src/components/CalendarView.tsx:134 | For month and day below 100, two keys are equal exactly when the year, month and day are. |
| CalendarView.SelectDay | src/components/CalendarView.tsx:133-137 | The selected date becomes the day's key and the view switches to the day view; nothing else changes. |
| CalendarView.IsSelected | src/components/CalendarView.tsx:140-143 | A highlighted day's selected key names the shown year, and its month and day fields read back as the shown month and that day. |
| CalendarView.SelectedDayIsUnique | src/components/CalendarView.tsx:133-143 | After selecting day d, a day e is highlighted iff e = d. |
| CalendarView.TapCell | src/components/CalendarView.tsx:172-173 | A padding cell (or day 0) changes nothing; any other day cell opens that day and marks it selected. |
| CalendarView.TapOnGrid | src/components/CalendarView.tsx:167-173 | Tapping a cell before the 1st changes nothing; tapping cell i from the 1st on selects day i-firstDay+1. |
| CalendarWidget.IsToday | src/components/CalendarWidget.tsx:28-62 | A day carries today's highlight only when its key in the shown month is today's key. |
| CalendarWidget.TodayIsTodaysKey | src/components/CalendarWidget.tsx:28-62 | For months and days below 100, a day carries the highlight exactly when its key in the shown month is today's key. |
| CalendarWidget.TodayHighlightedOnce | src/components/CalendarWidget.tsx:28-62 | At most one cell is highlighted, only when the shown month and year are today's. Then exactly today's cell is, provided today is a day of that month. |
| CalendarWidget.WidgetGridShape | src/components/CalendarWidget.tsx:34-40 | The widget grid is the blanks before the 1st, then day 1 in the 1st's weekday column, up to the last day in the last cell. |
| CalendarWidget.WidgetArrowsWrap | src/components/CalendarWidget.tsx:42-58 | January steps back to December of the previous year, December on to January of the next, and other months move by one. |
| CalendarWidget.DayHeaders | src/components/CalendarWidget.tsx:86-89 | Seven headers, each the first character of its `DAYS` entry. |
| CalendarWidget.DayHeadersSpelled | src/components/CalendarWidget.tsx:88 | The headers read S M T W T F S, so Tuesday/Thursday and Sunday/Saturday share letters. |
| ChatInput.Trim | src/components/ChatInput.tsx:19 | The trimmed text neither starts nor ends with ECMAScript whitespace. |
| ChatInput.TrimIsSlice | src/components/ChatInput.tsx:19 | The trimmed text is a contiguous piece of the input with only whitespace cut on either side. |
| ChatInput.TrimEmptyIffBlank | src/components/ChatInput.tsx:18 | The trim is empty iff the text is all whitespace. |
| ChatInput.TrimIdempotent | src/components/ChatInput.tsx:19 | Trimming twice is trimming once. |
| ChatInput.HandleSend | src/components/ChatInput.tsx:17-22 | `onSend` is called iff the trimmed text is non-empty and the input is enabled. It receives the trimmed text and the box is cleared. Otherwise the text is kept. |
| ChatInput.SendButtonDisabled | src/components/ChatInput.tsx:52-54 | The button is disabled exactly when `handleSend` would send nothing. When enabled, the trimmed text is non-empty and the input is not disabled. |
| ChatInput.ButtonMatchesGuard | src/components/ChatInput.tsx:52-54 | The send button is disabled exactly when pressing it would send nothing. What it sends is non-blank at both ends. |
| ChatInput.BlankNeverSent | src/components/ChatInput.tsx:17-22 | Whitespace-only text is never sent and stays in the box. |
| RecordButton.Pad2ReadsBack | src/components/RecordButton.tsx:25 | A padded number is all digits and reads back as itself; it is two characters exactly below 100. |
| RecordButton.FormatDuration | src/components/RecordButton.tsx:22-26 | Digits, a colon, and a two-digit seconds field below 60. |
| RecordButton.FormatDurationRoundTrip | src/components/RecordButton.tsx:22-26 | The readout is well formed. Reading it back (60 × minutes field + seconds field) gives the number of seconds formatted. |
| RecordButton.FormatDurationWidth | src/components/RecordButton.tsx:22-26 | The readout is 5 characters exactly below 6000 seconds; beyond that the minutes field widens. |
| RecordButton.FormatDurationInjective | src/components/RecordButton.tsx:22-26 | Different durations never show the same readout. |
| RecordButton.ButtonFace | src/components/RecordButton.tsx:30-60 | The readout shows iff recording. The icon is mic exactly when not recording (whatever `isPaused` says), play exactly when recording and paused, and stop exactly when recording and not paused. Each icon comes with its caption: mic with "Tap to record", play with "Tap to resume", stop with "Tap to stop". |
| RecordButton.FaceFollowsRecorder | src/components/RecordButton.tsx:47-60 | After a successful start the button offers stop; after a pause, resume; after a successful stop, a new recording with the readout hidden. |
| Strings.Split | src/api/gateway.ts:95 | `split('\n')` yields at least one piece and no piece holds the separator. |
| Strings.SplitOfTerminated | src/api/gateway.ts:95-96 | Splitting newline-terminated lines plus a newline-free tail gives back those lines and the tail. |
| Strings.SplitJoin | src/api/agents.ts:123 | Joining newline-free lines and splitting again gives back the lines. |

## Left out

- HTTP and the network. `fetch`, response objects and the gateway's WebSocket `connect`/`disconnect` are I/O. Only their outcomes (status, JSON value, body reads) enter the model, as inputs.
- `TextDecoder`. Each read of a stream body is taken as already-decoded text.
- `JSON.parse`. It is an oracle function parameter; what the model reads from it is a throw or the `.text` field.
- Strings are sequences of Unicode scalar values, not UTF-16 code units. This matters for `slice(0, 100)` only on astral characters.
- Persistence. Zustand `persist` and AsyncStorage are storage I/O; the conversation store is an in-memory map.
- `Object.values` order. `GetAllConversationsForDay` returns a set.
- The clock. `Date.now()` ids, `new Date()` timestamps and ISO `toISOString()` readings (UTC) are parameters. This covers `getToday`, `goToToday` and the store's initial state. `formatDate` and `toLocaleTimeString` are left out.
- `getWeekNumber`. It divides milliseconds in floating point; not modelled.
- The calendar day view's date parsing and the week view. These are view code that depends on the local time zone.
- Years below 100. `new Date(y, …)` reads them as 1900–1999; the calendar arithmetic requires year >= 100 instead of reproducing that.
- The audio duration timer. The once-a-second `setInterval` poll of `duration` is timer-driven concurrency.
- Pause and resume rejections. A rejected `pauseAsync`/`startAsync` propagates to the caller; the model only records that the state is unchanged.
- `sendMessage`'s gateway call. As written it calls `gateway.send(content, userId)`, which binds the text to `sessionId` and resolves with no value. The model takes the call's outcome as an abstract reply text or thrown value. The "reply" in `ChatStore.FinishSend` is therefore that parameter, not something `Gateway.Send` produces.
- Overlapping `sendMessage` calls. Asynchronous interleaving is not modelled; each call is one atomic transition. The properties of a completed send assume the placeholder id is not already in the list.
- Callbacks and React rendering. Callbacks passed to `sendAndStream` are assumed not to throw. Styles, icons, layout and navigation (`router.push`) are not modelled.
- `Gateway.GetSessions`: a rejected `fetch`, or a 2xx body that `res.json()` cannot parse, rejects the returned promise with the thrown value. The model starts from a received response and an already decoded JSON value, so those two rejections are not represented.
- `Gateway.Spawn`: the same two rejections (the `fetch`, and `res.json()` on a 2xx answer) are not represented, for the same reason.
- `Gateway.Send`: a rejected `fetch` is not represented; the model starts from the received status.
- `Agents.ChatResult`: the message of the `TypeError` a reply without `choices` raises is not modelled. A failed `response.json()` is folded into the same failure. A rejected `fetch` in `chat` is not represented: the model starts from the received status and the decoded reply.
- `CalendarWidget.TodayHighlightedOnce`: it is stated for the widget. The full calendar's month view and mini months use the same test, which is not repeated there.

=== FILE: agents.dfy ===
/** The agent registry and its chat adapter (`src/api/agents.ts`): the
    fixed catalog of agents, lookup by id, the request `chat` posts, how
    its reply is read, and the digest `syncConversation` sends for
    logging. The HTTP exchange is an input; the bearer token is a
    parameter. */
module Agents {
  import opened Types
  import opened Strings

  datatype AgentConfig = AgentConfig(id: string, name: string, description: string,
                                     emoji: Option<string>, systemPrompt: Option<string>)

  /** `AGENT_CONFIGS`. */
  const Catalog: seq<AgentConfig> := [
    AgentConfig("main", "Main Agent",
                "Your primary AI orchestrator. Knows everything, can spawn sub-agents.",
                Some("\U{1F9E0}"), None),
    AgentConfig("product", "Head of Product",
                "Product development, UI/UX, feature planning.",
                Some("\U{1F4F1}"),
                Some("You are a Head of Product. Focus on user experience, product strategy, and feature prioritization.")),
    AgentConfig("analyst", "Deal Analyst",
                "CRE deal analysis, market research, financial modeling.",
                Some("\U{1F4CA}"),
                Some("You are a CRE deal analyst. Focus on analyzing commercial real estate opportunities, cap rates, and market dynamics.")),
    AgentConfig("engineer", "Staff Engineer",
                "Architecture, code reviews, technical deep-dives.",
                Some("\U{26A1}"),
                Some("You are a Staff Engineer. Focus on system design, code quality, and technical excellence.")),
    AgentConfig("writer", "Content Writer",
                "Blog posts, documentation, marketing copy.",
                Some("\U{270D}\U{FE0F}"),
                Some("You are a content writer. Focus on clear, engaging writing for technical and marketing content."))
  ]

  /** The position `configs.find(a => a.id === id)` stops at: the first
      entry with that id, or the length when there is none. */
  function FindIndex(configs: seq<AgentConfig>, id: string): (k: nat)
    ensures k <= |configs|
    ensures k < |configs| ==> configs[k].id == id
    ensures forall j :: 0 <= j < k ==> configs[j].id != id
  {
    if configs == [] then 0
    else if configs[0].id == id then 0
    else 1 + FindIndex(configs[1..], id)
  }

  /** `getAgentConfig`: the first catalog entry with that id, if any. */
  function GetAgentConfig(id: string): (r: Option<AgentConfig>)
    ensures r.Some? ==> r.value in Catalog && r.value.id == id
    ensures r.None? <==> forall i :: 0 <= i < |Catalog| ==> Catalog[i].id != id
  {
    var k := FindIndex(Catalog, id);
    if k < |Catalog| then Some(Catalog[k]) else None
  }

  /** No two catalog entries share an id, so lookup is unambiguous. */
  lemma CatalogIdsDistinct()
    ensures forall i, j :: 0 <= i < j < |Catalog| ==> Catalog[i].id != Catalog[j].id
  {
  }

  /** Every catalog entry is found by its own id; `'main'` alone has no system prompt. */
  lemma CatalogLookup(i: nat)
    requires i < |Catalog|
    ensures GetAgentConfig(Catalog[i].id) == Some(Catalog[i])
    ensures Catalog[i].systemPrompt.None? <==> Catalog[i].id == "main"
  {
    CatalogIdsDistinct();
  }

  /** One entry of the request's message list. */
  datatype ChatEntry = ChatEntry(role: Role, content: string)

  /** The message list `chat` posts: the agent's system prompt when it has
      a non-empty one, then the user's message. */
  function ChatMessages(agentId: string, message: string): (ms: seq<ChatEntry>)
    ensures 1 <= |ms| <= 2 && ms[|ms| - 1] == ChatEntry(User, message)
    ensures |ms| == 2 <==> var c := GetAgentConfig(agentId);
                           c.Some? && c.value.systemPrompt.Some? && c.value.systemPrompt.value != ""
    ensures |ms| == 2 ==> ms[0] == ChatEntry(System, GetAgentConfig(agentId).value.systemPrompt.value)
  {
    var config := GetAgentConfig(agentId);
    var system := if config.Some? && config.value.systemPrompt.Some? && config.value.systemPrompt.value != ""
                  then [ChatEntry(System, config.value.systemPrompt.value)] else [];
    system + [ChatEntry(User, message)]
  }

  /** The headers of a completion request. */
  datatype Headers = Headers(contentType: string, authorization: string, agentHeader: string, channel: string)

  datatype CompletionRequest = CompletionRequest(headers: Headers, model: string,
                                                 messages: seq<ChatEntry>, user: string)

  /** The request `chat(agentId, message)` posts: every agent is routed to
      the `'main'` gateway agent, with a separate session user per agent. */
  function ChatRequest(agentId: string, message: string, token: string): (r: CompletionRequest)
    ensures r.headers.agentHeader == "main" && r.headers.channel == "mobile"
    ensures r.headers.authorization == "Bearer " + token
    ensures r.user == "dom-" + agentId && r.model == "clawdbot:main"
    ensures r.messages == ChatMessages(agentId, message)
  {
    var header := if agentId == "main" then "main" else "main";
    CompletionRequest(Headers("application/json", "Bearer " + token, header, "mobile"),
                      "clawdbot:main", ChatMessages(agentId, message), "dom-" + agentId)
  }

  /** Only catalog agents with a prompt get a system entry; `'main'` and
      unknown ids send the user's message alone. */
  lemma SystemEntryOnlyForPromptedAgents(agentId: string, message: string)
    ensures |ChatMessages(agentId, message)| == 1 <==>
              agentId == "main" || forall i :: 0 <= i < |Catalog| ==> Catalog[i].id != agentId
  {
    if GetAgentConfig(agentId).Some? {
      var c := GetAgentConfig(agentId).value;
      var i :| 0 <= i < |Catalog| && Catalog[i] == c;
      CatalogLookup(i);
    }
  }

  /** What `response.json()` holds, as far as `chat` reads it: no `choices`
      array at all, or the content of `choices[0].message`, absent when
      any step of the optional chain is missing. */
  datatype CompletionReply = NoChoices | FirstContent(content: Option<string>)

  datatype AgentError = StatusError(status: nat) | MalformedReply

  /** The message `chat` throws for a non-2xx status; a reply without
      `choices` makes the runtime throw a `TypeError` instead. */
  function StatusErrorMessage(status: nat): (m: string)
    ensures StartsWith(m, "Agent error: ")
  {
    "Agent error: " + Decimal(status)
  }

  /** The thrown message names the status: it reads back after the prefix. */
  lemma StatusErrorNamesStatus(status: nat)
    ensures var m := StatusErrorMessage(status);
            AllDigits(m[13..]) && ParseDecimal(m[13..]) == status
  {
    assert StatusErrorMessage(status)[13..] == Decimal(status);
    ParseDecimalInvertsDecimal(status);
  }

  /** What `chat` resolves to: the reply's content, or `''` when it is
      missing or empty; a failure for a non-2xx status or a reply without
      `choices`. */
  function ChatResult(status: nat, reply: CompletionReply): (r: Result<string, AgentError>)
    ensures !(200 <= status <= 299) ==> r == Failure(StatusError(status))
    ensures 200 <= status <= 299 && reply.FirstContent? ==>
              r == Success(reply.content.GetOr(""))
    ensures 200 <= status <= 299 && reply.NoChoices? ==> r == Failure(MalformedReply)
    ensures r.Failure? <==> !(200 <= status <= 299) || reply.NoChoices?
  {
    if !(200 <= status <= 299) then Failure(StatusError(status))
    else match reply
      case NoChoices => Failure(MalformedReply)
      case FirstContent(content) => Success(content.GetOr(""))
  }

  // ----- syncConversation -----

  /** The messages `syncConversation` is given. */
  datatype SyncMessage = SyncMessage(role: string, content: string, timestamp: string)

  const ExcerptLength: nat := 100

  /** `content.slice(0, 100)`. */
  function Excerpt(content: string): (e: string)
    ensures |e| <= ExcerptLength && |e| <= |content|
    ensures e == content[..|e|]
    ensures |content| <= ExcerptLength ==> e == content
  {
    if |content| <= ExcerptLength then content else content[..ExcerptLength]
  }

  /** One digest line: `[role]: ` then at most 100 characters of content,
      then `...`, even when nothing was cut. */
  function DigestLine(m: SyncMessage): (line: string)
    ensures StartsWith(line, "[" + m.role + "]: ")
    ensures line[|line| - 3..] == "..."
    ensures |line| == |m.role| + 4 + |Excerpt(m.content)| + 3 <= |m.role| + 4 + ExcerptLength + 3
    ensures line[|m.role| + 4..|line| - 3] == Excerpt(m.content)
  {
    var line := "[" + m.role + "]: " + Excerpt(m.content) + "...";
    Framing("[" + m.role + "]: ", Excerpt(m.content), "...");
    line
  }

  /** The digest: one line per message, in order, joined by newlines. */
  function Digest(ms: seq<SyncMessage>): (d: string)
    ensures ms == [] ==> d == ""
    ensures |ms| == 1 ==> d == DigestLine(ms[0])
  {
    Join(seq(|ms|, i requires 0 <= i < |ms| => DigestLine(ms[i])), '\n')
  }

  /** Each further message adds a newline and its own line to the digest. */
  lemma DigestAppend(ms: seq<SyncMessage>, m: SyncMessage)
    requires ms != []
    ensures Digest(ms + [m]) == Digest(ms) + "\n" + DigestLine(m)
  {
    var lines := seq(|ms|, i requires 0 <= i < |ms| => DigestLine(ms[i]));
    var all := seq(|ms + [m]|, i requires 0 <= i < |ms + [m]| => DigestLine((ms + [m])[i]));
    assert all == lines + [DigestLine(m)];
    JoinAppend(lines, DigestLine(m), '\n');
  }

  /** When no role or content holds a newline, the digest splits back into
      exactly one line per message, in message order. */
  lemma DigestLinesRecoverable(ms: seq<SyncMessage>)
    requires |ms| >= 1
    requires forall i :: 0 <= i < |ms| ==> '\n' !in ms[i].role && '\n' !in ms[i].content
    ensures Split(Digest(ms), '\n') == seq(|ms|, i requires 0 <= i < |ms| => DigestLine(ms[i]))
  {
    var lines := seq(|ms|, i requires 0 <= i < |ms| => DigestLine(ms[i]));
    forall i | 0 <= i < |lines|
      ensures '\n' !in lines[i]
    {
      var m := ms[i];
      assert lines[i] == "[" + m.role + "]: " + Excerpt(m.content) + "...";
      assert Excerpt(m.content) == m.content[..|Excerpt(m.content)|];
      assert forall c :: c in Excerpt(m.content) ==> c in m.content;
    }
    SplitJoin(lines, '\n');
  }

  const SyncPrefix: string := "[MOBILE SYNC] Log this conversation from agent \""
  const SyncSuffix: string :=
    "\n\nSave to /root/clawd/vault/obsidian/LifeOS/Mobile/conversations/ and respond with HEARTBEAT_OK"

  /** What sits between the fixed framing text of a sync message: the
      agent id, a closing quote and colon, a blank line, and the digest. */
  function SyncBody(agentId: string, ms: seq<SyncMessage>): (b: string)
    ensures StartsWith(b, agentId)
    ensures |b| == |agentId| + 4 + |Digest(ms)|
    ensures b[|agentId|..|agentId| + 4] == "\":\n\n" && b[|agentId| + 4..] == Digest(ms)
    ensures ms == [] ==> b == agentId + "\":\n\n"
  {
    var b := agentId + "\":\n\n" + Digest(ms);
    Framing(agentId, "\":\n\n", Digest(ms));
    b
  }

  /** The request `syncConversation` posts: a single user message wrapping
      the agent id and the digest, always as user `'dom-sync'` to the
      `'main'` gateway agent. */
  function SyncRequest(agentId: string, ms: seq<SyncMessage>, token: string): (r: CompletionRequest)
    ensures r.headers.agentHeader == "main" && r.headers.channel == "mobile-sync"
    ensures r.user == "dom-sync" && |r.messages| == 1 && r.messages[0].role == User
    ensures r.messages[0].content == SyncPrefix + SyncBody(agentId, ms) + SyncSuffix
  {
    var content := SyncPrefix + SyncBody(agentId, ms) + SyncSuffix;
    CompletionRequest(Headers("application/json", "Bearer " + token, "main", "mobile-sync"),
                      "clawdbot:main", [ChatEntry(User, content)], "dom-sync")
  }

  /** Between the fixed framing text, the sync message holds the agent id
      and the digest and nothing else; with no messages the digest part is empty. */
  lemma SyncContentFraming(agentId: string, ms: seq<SyncMessage>, token: string)
    ensures var c := SyncRequest(agentId, ms, token).messages[0].content;
            && |SyncPrefix| + |SyncSuffix| <= |c|
            && StartsWith(c, SyncPrefix) && c[|c| - |SyncSuffix|..] == SyncSuffix
            && c[|SyncPrefix|..|c| - |SyncSuffix|] == SyncBody(agentId, ms)
            && StartsWith(c[|SyncPrefix|..|c| - |SyncSuffix|], agentId)
            && (ms == [] ==> c[|SyncPrefix|..|c| - |SyncSuffix|] == agentId + "\":\n\n")
  {
    Framing(SyncPrefix, SyncBody(agentId, ms), SyncSuffix);
  }

  /** A text framed by a prefix and a suffix gives back all three parts. */
  lemma Framing(prefix: string, middle: string, suffix: string)
    ensures var c := prefix + middle + suffix;
            && |prefix| + |suffix| <= |c| && StartsWith(c, prefix)
            && c[|c| - |suffix|..] == suffix && c[|prefix|..|c| - |suffix|] == middle
  {
  }
}

=== FILE: audio_store.dfy ===
/** The audio recording store (`src/stores/audioStore.ts`): permission,
    start, stop, pause, resume and delete as transitions of the store's
    state. What expo-av answers (permission grant, recorder creation,
    stop results) and `Date.now()` are parameters; the once-a-second
    duration poll is not modelled. */
module AudioStore {
  import opened Types
  import opened Strings

  /** An expo-av recorder object, known only by identity. */
  datatype Recorder = Recorder(handle: nat)

  datatype AudioState = AudioState(isRecording: bool, isPaused: bool, currentRecording: Option<Recorder>,
                                   recordings: seq<Recording>, duration: nat, error: Option<string>,
                                   hasPermission: bool)

  const Initial: AudioState := AudioState(false, false, None, [], 0, None, false)

  /** How a call to an expo-av promise went. */
  datatype DeviceCall = Completed | Rejected(thrown: Thrown)

  /** `Audio.requestPermissionsAsync()` and, when granted, `setAudioModeAsync(...)`. */
  datatype PermissionOutcome = Answered(granted: bool, audioMode: DeviceCall) | RequestRejected(thrown: Thrown)

  /** `Audio.Recording.createAsync(...)`. */
  datatype CreateOutcome = Created(recorder: Recorder) | CreateRejected(thrown: Thrown)

  /** `stopAndUnloadAsync()`, `getURI()` and `getStatusAsync()` together:
      the URI (absent or empty when there is none) and the length in
      milliseconds, or the first rejection. */
  datatype StopOutcome = Stopped(uri: Option<string>, durationMillis: nat) | StopRejected(thrown: Thrown)

  datatype PermissionStep = PermissionStep(state: AudioState, granted: bool)

  /** `requestPermission`: records the answer and returns it; a rejection
      (of the request, or of the audio-mode call after a grant) sets the
      error and returns false. */
  function RequestPermission(s: AudioState, outcome: PermissionOutcome): (r: PermissionStep)
    ensures outcome.Answered? && outcome.audioMode == Completed ==>
              r.granted == outcome.granted && r.state == s.(hasPermission := outcome.granted)
    ensures outcome.RequestRejected? ==>
              !r.granted && r.state == s.(error := Some(MessageOf(outcome.thrown, "Permission error")))
    ensures outcome.Answered? ==>
              && r.state.hasPermission == outcome.granted
              && (r.granted <==> outcome.granted && outcome.audioMode == Completed)
    ensures outcome.Answered? && outcome.granted && outcome.audioMode.Rejected? ==>
              r.state.error == Some(MessageOf(outcome.audioMode.thrown, "Permission error"))
    ensures r.granted ==> r.state.hasPermission
    ensures r.state.(hasPermission := s.hasPermission, error := s.error) == s
  {
    match outcome
    case RequestRejected(thrown) =>
      PermissionStep(s.(error := Some(MessageOf(thrown, "Permission error"))), false)
    case Answered(granted, audioMode) =>
      var answered := s.(hasPermission := granted);
      if granted && audioMode.Rejected? then
        PermissionStep(answered.(error := Some(MessageOf(audioMode.thrown, "Permission error"))), false)
      else
        PermissionStep(answered, granted)
  }

  /** `startRecording`: asks for permission first when it is missing (and
      gives up with an error if refused), then creates a recorder; on
      success the state is recording, unpaused, at zero seconds and
      error-free, and a failed creation only sets the error. */
  function StartRecording(s: AudioState, permission: PermissionOutcome, create: CreateOutcome): (r: AudioState)
    ensures !s.hasPermission && !RequestPermission(s, permission).granted ==>
              && r.error == Some("Microphone permission denied")
              && r.isRecording == s.isRecording && r.isPaused == s.isPaused
              && r.currentRecording == s.currentRecording
    ensures (s.hasPermission || RequestPermission(s, permission).granted) && create.Created? ==>
              && r.isRecording && !r.isPaused && r.duration == 0 && r.error == None
              && r.currentRecording == Some(create.recorder) && r.hasPermission
    ensures (s.hasPermission || RequestPermission(s, permission).granted) && create.CreateRejected? ==>
              r == (if s.hasPermission then s else RequestPermission(s, permission).state)
                     .(error := Some(MessageOf(create.thrown, "Recording failed")))
    ensures create.CreateRejected? ==>
              r.isRecording == s.isRecording && r.currentRecording == s.currentRecording && r.error.Some?
    ensures r.recordings == s.recordings
  {
    var ready :=
      if s.hasPermission then PermissionStep(s, true) else RequestPermission(s, permission);
    if !ready.granted then
      ready.state.(error := Some("Microphone permission denied"))
    else match create
      case Created(recorder) =>
        ready.state.(currentRecording := Some(recorder), isRecording := true, isPaused := false,
                     duration := 0, error := None)
      case CreateRejected(thrown) =>
        ready.state.(error := Some(MessageOf(thrown, "Recording failed")))
  }

  datatype StopStep = StopStep(state: AudioState, recording: Option<Recording>)

  /** The recording a successful stop files. */
  function NewRecording(uri: string, durationMillis: nat, nowMillis: nat): Recording {
    Recording("recording-" + Decimal(nowMillis), uri, durationMillis / 1000, nowMillis, None)
  }

  /** `stopRecording`: without a current recorder, nothing happens and no
      recording is returned. A successful stop files exactly one recording
      at the end of the list and resets the recording flags; a missing URI
      or a rejection only sets the error. */
  function StopRecording(s: AudioState, stop: StopOutcome, nowMillis: nat): (r: StopStep)
    ensures s.currentRecording.None? ==> r == StopStep(s, None)
    ensures r.recording.Some? <==> s.currentRecording.Some? && stop.Stopped? && stop.uri.Some? && stop.uri.value != ""
    ensures r.recording.Some? ==>
              && r.state.recordings == s.recordings + [r.recording.value]
              && r.recording.value.duration == stop.durationMillis / 1000
              && r.state.currentRecording.None? && !r.state.isRecording && !r.state.isPaused
              && r.state.duration == 0 && r.state.error == s.error
              && r.recording.value.uri == stop.uri.value && r.recording.value.createdAt == nowMillis
              && r.recording.value.id == "recording-" + Decimal(nowMillis)
              && r.recording.value.transcription.None?
    ensures s.currentRecording.Some? && stop.Stopped? && (stop.uri.None? || stop.uri.value == "") ==>
              r == StopStep(s.(error := Some("No recording URI")), None)
    ensures s.currentRecording.Some? && stop.StopRejected? ==>
              r == StopStep(s.(error := Some(MessageOf(stop.thrown, "Stop failed"))), None)
    ensures r.recording.None? ==> r.state.recordings == s.recordings && r.state.currentRecording == s.currentRecording
                                  && r.state.isRecording == s.isRecording
  {
    if s.currentRecording.None? then StopStep(s, None)
    else match stop
      case StopRejected(thrown) =>
        StopStep(s.(error := Some(MessageOf(thrown, "Stop failed"))), None)
      case Stopped(uri, durationMillis) =>
        if uri.None? || uri.value == "" then
          StopStep(s.(error := Some("No recording URI")), None)
        else
          var recording := NewRecording(uri.value, durationMillis, nowMillis);
          StopStep(s.(currentRecording := None, isRecording := false, isPaused := false, duration := 0,
                      recordings := s.recordings + [recording]), Some(recording))
  }

  /** `pauseRecording`: marks the recording paused once the recorder has
      paused; without a recorder, or if pausing is rejected, nothing changes. */
  function PauseRecording(s: AudioState, call: DeviceCall): (r: AudioState)
    ensures r == s || (s.currentRecording.Some? && call == Completed && r == s.(isPaused := true))
    ensures s.currentRecording.Some? && call == Completed ==> r.isPaused
  {
    if s.currentRecording.Some? && call == Completed then s.(isPaused := true) else s
  }

  /** `resumeRecording`: the mirror image of `pauseRecording`. */
  function ResumeRecording(s: AudioState, call: DeviceCall): (r: AudioState)
    ensures r == s || (s.currentRecording.Some? && call == Completed && r == s.(isPaused := false))
    ensures s.currentRecording.Some? && call == Completed ==> !r.isPaused
  {
    if s.currentRecording.Some? && call == Completed then s.(isPaused := false) else s
  }

  /** The recordings not carrying id `id`, in their original order. */
  function WithoutId(rs: seq<Recording>, id: string): (r: seq<Recording>)
    ensures |r| <= |rs|
    ensures forall i :: 0 <= i < |r| ==> r[i].id != id
  {
    if rs == [] then []
    else WithoutId(rs[..|rs| - 1], id) + (if rs[|rs| - 1].id == id then [] else [rs[|rs| - 1]])
  }

  /** `deleteRecording`: drops every recording with that id and touches nothing else. */
  function DeleteRecording(s: AudioState, id: string): (r: AudioState)
    ensures r == s.(recordings := r.recordings)
    ensures r.recordings == WithoutId(s.recordings, id)
    ensures forall i :: 0 <= i < |r.recordings| ==> r.recordings[i].id != id
  {
    s.(recordings := WithoutId(s.recordings, id))
  }

  /** Deleting keeps exactly the recordings with another id. */
  lemma {:induction false} WithoutIdMembers(rs: seq<Recording>, id: string, x: Recording)
    ensures x in WithoutId(rs, id) <==> x in rs && x.id != id
  {
    if rs != [] {
      WithoutIdMembers(rs[..|rs| - 1], id, x);
      assert rs == rs[..|rs| - 1] + [rs[|rs| - 1]];
    }
  }

  /** Deleting preserves order: it distributes over concatenation. */
  lemma {:induction false} WithoutIdAppend(a: seq<Recording>, b: seq<Recording>, id: string)
    ensures WithoutId(a + b, id) == WithoutId(a, id) + WithoutId(b, id)
    decreases |b|
  {
    if b == [] {
      assert a + b == a;
    } else {
      var init, last := b[..|b| - 1], b[|b| - 1];
      var kept := if last.id == id then [] else [last];
      assert (a + b)[..|a + b| - 1] == a + init;
      assert (a + b)[|a + b| - 1] == last;
      assert WithoutId(a + b, id) == WithoutId(a + init, id) + kept;
      WithoutIdAppend(a, init, id);
    }
  }

  /** Deleting an id twice is deleting it once. */
  lemma {:induction false} DeleteIdempotent(rs: seq<Recording>, id: string)
    ensures WithoutId(WithoutId(rs, id), id) == WithoutId(rs, id)
  {
    if rs != [] {
      var init, last := rs[..|rs| - 1], rs[|rs| - 1];
      DeleteIdempotent(init, id);
      var kept := if last.id == id then [] else [last];
      WithoutIdAppend(WithoutId(init, id), kept, id);
      assert kept == [] || kept[..0] == [];
    }
  }

  /** The flags stay coherent: recording exactly while a recorder is held,
      and paused only while recording. */
  ghost predicate Coherent(s: AudioState) {
    (s.isRecording <==> s.currentRecording.Some?) && (s.isPaused ==> s.isRecording)
  }

  /** Every transition keeps the flags coherent. */
  lemma TransitionsKeepCoherent(s: AudioState, p: PermissionOutcome, c: CreateOutcome, stop: StopOutcome,
                                call: DeviceCall, now: nat, id: string)
    requires Coherent(s)
    ensures Coherent(RequestPermission(s, p).state)
    ensures Coherent(StartRecording(s, p, c))
    ensures Coherent(StopRecording(s, stop, now).state)
    ensures Coherent(PauseRecording(s, call)) && Coherent(ResumeRecording(s, call))
    ensures Coherent(DeleteRecording(s, id))
  {
  }
}

=== FILE: calendar_store.dfy ===
/** The calendar store (`src/stores/calendarStore.ts`): its state and
    setters, and the date helpers `getDaysInMonth` and `getFirstDayOfMonth`.
    The helpers rest on JavaScript `Date` arithmetic in the proleptic
    Gregorian calendar, modelled here as a day count: a month index outside
    0..11 rolls over into neighbouring years, as `new Date(y, m, d)` does.
    Years below 100 are excluded, because `new Date` reads them as 1900
    onwards. */
module CalendarStore {
  import opened Types

  // ----- Gregorian arithmetic -----

  predicate IsLeapYear(y: int) {
    y % 4 == 0 && (y % 100 != 0 || y % 400 == 0)
  }

  /** The length of month `m` (0 = January) of year `y`. */
  function MonthLength(m: int, y: int): (n: int)
    requires 0 <= m < 12
  {
    if m == 1 then (if IsLeapYear(y) then 29 else 28)
    else if m == 3 || m == 5 || m == 8 || m == 10 then 30
    else 31
  }

  /** Days from 1 January of year 1 to 1 January of year `y`. */
  function DaysBeforeYear(y: int): int {
    var p := y - 1;
    365 * p + p / 4 - p / 100 + p / 400
  }

  /** Days from 1 January to the first of month `m` of year `y`. */
  function DaysBeforeMonth(m: int, y: int): int
    requires 0 <= m < 12
  {
    var common := [0, 31, 59, 90, 120, 151, 181, 212, 243, 273, 304, 334][m];
    if m >= 2 && IsLeapYear(y) then common + 1 else common
  }

  /** The month index and year `new Date(y, month, d)` lands in. */
  function NormalMonth(month: int): int {
    month % 12
  }

  function NormalYear(month: int, year: int): int {
    year + month / 12
  }

  /** The day number (0 = 1 January of year 1) of `new Date(year, month, day)`;
      `month` and `day` may lie outside their usual ranges and roll over. */
  function DateValue(year: int, month: int, day: int): int {
    DaysBeforeYear(NormalYear(month, year)) + DaysBeforeMonth(NormalMonth(month), NormalYear(month, year)) + day - 1
  }

  /** The weekday of a day number, 0 = Sunday (1 January of year 1 was a Monday). */
  function Weekday(dayNumber: int): (w: int)
    ensures 0 <= w < 7
  {
    (dayNumber + 1) % 7
  }

  /** `getDaysInMonth(month, year)`: the Gregorian length of the month
      `new Date(year, month, 1)` falls in. */
  function DaysInMonth(month: int, year: int): (n: int)
    requires year >= 100
    ensures 28 <= n <= 31
    ensures NormalMonth(month) == 1 ==> (n == 29 <==> IsLeapYear(NormalYear(month, year)))
    ensures NormalMonth(month) != 1 ==> n == 30 || n == 31
  {
    MonthLength(NormalMonth(month), NormalYear(month, year))
  }

  /** `getFirstDayOfMonth(month, year)`: the weekday of the month's first day, 0 = Sunday. */
  function FirstDayOfMonth(month: int, year: int): (w: int)
    requires year >= 100
    ensures 0 <= w < |Days|
  {
    Weekday(DateValue(year, month, 1))
  }

  /** `MONTHS`. */
  const Months: seq<string> := ["January", "February", "March", "April", "May", "June",
                                "July", "August", "September", "October", "November", "December"]

  /** `DAYS`, indexed by weekday. */
  const Days: seq<string> := ["Sun", "Mon", "Tue", "Wed", "Thu", "Fri", "Sat"]

  /** One year more when `y` is a leap year: the leap-day count of the
      year formula grows exactly at leap years. */
  lemma YearLength(y: int)
    ensures DaysBeforeYear(y + 1) == DaysBeforeYear(y) + (if IsLeapYear(y) then 366 else 365)
  {
    DivStep(y, 4);
    DivStep(y, 100);
    DivStep(y, 400);
  }

  /** Stepping from `y - 1` to `y` crosses a multiple of `k` exactly when
      `k` divides `y`; `k` is one of the leap-year divisors. */
  lemma DivStep(y: int, k: int)
    requires k == 4 || k == 100 || k == 400
    ensures y / k - (y - 1) / k == if y % k == 0 then 1 else 0
  {
    if k == 4 {
      assert y / 4 - (y - 1) / 4 == if y % 4 == 0 then 1 else 0;
    } else if k == 100 {
      assert y / 100 - (y - 1) / 100 == if y % 100 == 0 then 1 else 0;
    } else {
      assert y / 400 - (y - 1) / 400 == if y % 400 == 0 then 1 else 0;
    }
  }

  /** The first of the following month is `DaysInMonth` days later: this is
      why `new Date(year, month + 1, 0)`, the day before it, is the
      month's last day. December rolls into January of the next year. */
  lemma NextMonthStart(month: int, year: int)
    requires year >= 100
    ensures DateValue(year, month + 1, 1) == DateValue(year, month, 1) + DaysInMonth(month, year)
    ensures DateValue(year, month + 1, 0) == DateValue(year, month, DaysInMonth(month, year))
  {
    var m := NormalMonth(month);
    var y := NormalYear(month, year);
    if m < 11 {
      assert NormalMonth(month + 1) == m + 1 && NormalYear(month + 1, year) == y;
    } else {
      assert NormalMonth(month + 1) == 0 && NormalYear(month + 1, year) == y + 1;
      YearLength(y);
    }
  }

  /** Consecutive months: the next month starts on the weekday after this
      month's days have run out. */
  lemma FirstDayOfNextMonth(month: int, year: int)
    requires year >= 100
    ensures FirstDayOfMonth(month + 1, year) == (FirstDayOfMonth(month, year) + DaysInMonth(month, year)) % 7
  {
    NextMonthStart(month, year);
    var a := DateValue(year, month, 1);
    var n := DaysInMonth(month, year);
    assert DateValue(year, month + 1, 1) + 1 == (a + 1) + n;
    ShiftWeekday(a + 1, n);
  }

  /** Counting `n` days on from a weekday. */
  lemma ShiftWeekday(x: int, n: int)
    ensures (x + n) % 7 == (x % 7 + n) % 7
  {
    var q := x / 7;
    assert x == 7 * q + x % 7;
    assert x + n == 7 * q + (x % 7 + n);
  }

  /** In particular December passes on to January of the next year. */
  lemma FirstDayOfJanuary(year: int)
    requires year >= 100
    ensures FirstDayOfMonth(0, year + 1) == (FirstDayOfMonth(11, year) + 31) % 7
  {
    FirstDayOfNextMonth(11, year);
    assert NormalMonth(12) == 0 && NormalYear(12, year) == year + 1;
  }

  /** The day count agrees with the calendar: 1 January 1970 was a
      Thursday, and 1 October 2026 a Thursday too. */
  lemma KnownWeekdays()
    ensures FirstDayOfMonth(0, 1970) == 4
    ensures FirstDayOfMonth(9, 2026) == 4
  {
    assert NormalMonth(0) == 0 && NormalYear(0, 1970) == 1970;
    assert DaysBeforeYear(1970) == 719162;
    assert DateValue(1970, 0, 1) == 719162;
    assert 719163 % 7 == 4;
    assert NormalMonth(9) == 9 && NormalYear(9, 2026) == 2026;
    assert DaysBeforeYear(2026) == 739616;
    assert !IsLeapYear(2026) && DaysBeforeMonth(9, 2026) == 273;
    assert DateValue(2026, 9, 1) == 739889;
    assert 739890 % 7 == 4;
  }

  // ----- Store state and setters -----

  datatype ViewMode = YearView | MonthView | WeekView | DayView

  datatype EventKind = Deal | Health | Task | Meeting | Note

  datatype CalendarEvent = CalendarEvent(id: string, title: string, date: string, time: Option<string>,
                                         kind: EventKind, details: Option<string>)

  datatype HealthLog = HealthLog(meals: seq<string>, workout: Option<string>)

  datatype DayData = DayData(date: string, events: seq<CalendarEvent>, health: Option<HealthLog>,
                             deals: Option<seq<string>>)

  /** `selectedMonth` is 0-based; `dayData` is keyed by `YYYY-MM-DD`. */
  datatype CalendarState = CalendarState(viewMode: ViewMode, selectedDate: string, selectedMonth: int,
                                         selectedYear: int, events: seq<CalendarEvent>,
                                         dayData: map<string, DayData>)

  /** The store's initial state, given today's ISO date, month and year. */
  function Initial(todayKey: string, month: int, year: int): CalendarState {
    CalendarState(MonthView, todayKey, month, year, [], map[])
  }

  function SetViewMode(s: CalendarState, mode: ViewMode): (r: CalendarState)
    ensures r.viewMode == mode && r.(viewMode := s.viewMode) == s
  {
    s.(viewMode := mode)
  }

  function SetSelectedDate(s: CalendarState, date: string): (r: CalendarState)
    ensures r.selectedDate == date && r.(selectedDate := s.selectedDate) == s
  {
    s.(selectedDate := date)
  }

  function SetSelectedMonth(s: CalendarState, month: int): (r: CalendarState)
    ensures r.selectedMonth == month && r.(selectedMonth := s.selectedMonth) == s
  {
    s.(selectedMonth := month)
  }

  function SetSelectedYear(s: CalendarState, year: int): (r: CalendarState)
    ensures r.selectedYear == year && r.(selectedYear := s.selectedYear) == s
  {
    s.(selectedYear := year)
  }

  /** `addEvent`: the event goes last; nothing else changes. */
  function AddEvent(s: CalendarState, e: CalendarEvent): (r: CalendarState)
    ensures r.events == s.events + [e] && r.(events := s.events) == s
  {
    s.(events := s.events + [e])
  }

  /** `setDayData`: key `date` now holds `data`; every other key is untouched. */
  function SetDayData(s: CalendarState, date: string, data: DayData): (r: CalendarState)
    ensures date in r.dayData && r.dayData[date] == data
    ensures r.dayData.Keys == s.dayData.Keys + {date}
    ensures forall k :: k in s.dayData && k != date ==> r.dayData[k] == s.dayData[k]
    ensures r.(dayData := s.dayData) == s
  {
    s.(dayData := s.dayData[date := data])
  }

  /** `goToMonth`: sets the month and the year, nothing else. */
  function GoToMonth(s: CalendarState, month: int, year: int): (r: CalendarState)
    ensures r.selectedMonth == month && r.selectedYear == year
    ensures r.(selectedMonth := s.selectedMonth, selectedYear := s.selectedYear) == s
  {
    s.(selectedMonth := month, selectedYear := year)
  }

  /** `goToToday`, given today's ISO date, month and year from the clock. */
  function GoToToday(s: CalendarState, todayKey: string, month: int, year: int): (r: CalendarState)
    ensures r == GoToMonth(SetSelectedDate(s, todayKey), month, year)
  {
    s.(selectedDate := todayKey, selectedMonth := month, selectedYear := year)
  }

  /** The later of two writes to the same day wins; writes to different days commute. */
  lemma SetDayDataLastWins(s: CalendarState, d1: string, x1: DayData, d2: string, x2: DayData)
    ensures d1 == d2 ==> SetDayData(SetDayData(s, d1, x1), d2, x2) == SetDayData(s, d2, x2)
    ensures d1 != d2 ==> SetDayData(SetDayData(s, d1, x1), d2, x2) == SetDayData(SetDayData(s, d2, x2), d1, x1)
  {
  }

  /** `goToMonth` is the two single-field setters one after the other, in either order. */
  lemma GoToMonthIsTwoSetters(s: CalendarState, month: int, year: int)
    ensures GoToMonth(s, month, year) == SetSelectedYear(SetSelectedMonth(s, month), year)
    ensures GoToMonth(s, month, year) == SetSelectedMonth(SetSelectedYear(s, year), month)
  {
  }

  /** The name tables cover every month index and every weekday. */
  lemma NameTablesCover(month: int, year: int)
    requires year >= 100 && 0 <= month < 12
    ensures |Months| == 12 && |Days| == 7
    ensures 0 <= FirstDayOfMonth(month, year) < |Days|
  {
  }
}

=== FILE: calendar_view.dfy ===
/** The full calendar screen (`src/components/CalendarView.tsx`): the
    month grid and the year view's 35-cell mini months, month and year
    navigation, and the `YYYY-MM-DD` keys that select a day. Each handler
    is a transition of the calendar store's state. */
module CalendarView {
  import opened Types
  import opened Strings
  import opened CalendarStore

  // ----- Month grid -----

  /** One grid cell: padding before the 1st (`null`), or a day of the month. */
  datatype Cell = Blank | DayCell(day: nat)

  /** `firstDay` blanks, then the days 1..n in order. */
  ghost predicate IsMonthGrid(cells: seq<Cell>, firstDay: nat, n: nat) {
    && |cells| == firstDay + n
    && (forall i :: 0 <= i < firstDay ==> cells[i] == Blank)
    && (forall i :: firstDay <= i < |cells| ==> cells[i] == DayCell(i - firstDay + 1))
  }

  /** The grid of a month whose 1st falls on weekday `firstDay` and which has `n` days. */
  function Grid(firstDay: nat, n: nat): (cells: seq<Cell>)
    ensures IsMonthGrid(cells, firstDay, n)
  {
    seq(firstDay, i => Blank) + seq(n, i requires 0 <= i < n => DayCell(i + 1))
  }

  /** The grid shown for a month and year. */
  function MonthGrid(month: int, year: int): (cells: seq<Cell>)
    requires year >= 100
    ensures IsMonthGrid(cells, FirstDayOfMonth(month, year), DaysInMonth(month, year))
    ensures |cells| <= 6 * 7
  {
    Grid(FirstDayOfMonth(month, year), DaysInMonth(month, year))
  }

  /** The two loops that fill `calendarDays`: blanks up to the first
      weekday, then one cell per day. */
  method BuildGrid(firstDay: nat, daysInMonth: nat) returns (cells: seq<Cell>)
    ensures cells == Grid(firstDay, daysInMonth)
  {
    cells := [];
    var i := 0;
    while i < firstDay
      invariant 0 <= i <= firstDay
      invariant cells == seq(i, k => Blank)
    {
      cells := cells + [Blank];
      i := i + 1;
    }
    i := 1;
    while i <= daysInMonth
      invariant 1 <= i <= daysInMonth + 1
      invariant |cells| == firstDay + i - 1
      invariant cells[..firstDay] == seq(firstDay, k => Blank)
      invariant forall k :: firstDay <= k < |cells| ==> cells[k] == DayCell(k - firstDay + 1)
    {
      cells := cells + [DayCell(i)];
      i := i + 1;
    }
    assert cells[firstDay..] == seq(daysInMonth, k requires 0 <= k < daysInMonth => DayCell(k + 1));
    assert cells == cells[..firstDay] + cells[firstDay..];
  }

  /** Every day of the month sits in exactly one cell, at `firstDay + day - 1`. */
  lemma DayCellPosition(firstDay: nat, n: nat, i: nat, day: nat)
    requires i < firstDay + n
    ensures Grid(firstDay, n)[i] == DayCell(day) <==> 1 <= day <= n && i == firstDay + day - 1
  {
  }

  /** `days.slice(0, 35)`: the cells a year-view mini month shows. */
  function MiniMonth(cells: seq<Cell>): (shown: seq<Cell>)
    ensures |shown| == if |cells| < 35 then |cells| else 35
    ensures shown == cells[..|shown|]
  {
    if |cells| <= 35 then cells else cells[..35]
  }

  /** A mini month shows day `d` exactly when its cell lies among the first 35. */
  lemma MiniMonthShows(firstDay: nat, n: nat, d: nat)
    requires 1 <= d <= n
    ensures DayCell(d) in MiniMonth(Grid(firstDay, n)) <==> firstDay + d - 1 < 35
  {
    var cells := Grid(firstDay, n);
    var shown := MiniMonth(cells);
    if DayCell(d) in shown {
      var i :| 0 <= i < |shown| && shown[i] == DayCell(d);
      DayCellPosition(firstDay, n, i, d);
    }
    if firstDay + d - 1 < 35 {
      assert shown[firstDay + d - 1] == DayCell(d);
    }
  }

  /** January 2027 starts on a Friday, so its 31st falls in cell 36 and
      the year view's mini month does not show it. */
  lemma MiniMonthDropsJanuary31st2027()
    ensures FirstDayOfMonth(0, 2027) == 5 && DaysInMonth(0, 2027) == 31
    ensures DayCell(31) !in MiniMonth(MonthGrid(0, 2027))
    ensures DayCell(30) in MiniMonth(MonthGrid(0, 2027))
  {
    assert NormalMonth(0) == 0 && NormalYear(0, 2027) == 2027;
    assert DaysBeforeYear(2027) == 739981;
    assert DateValue(2027, 0, 1) == 739981;
    assert 739982 % 7 == 5;
    MiniMonthShows(5, 31, 31);
    MiniMonthShows(5, 31, 30);
  }

  // ----- Navigation -----

  /** The month arrows' `goToPrevMonth`: January goes back to December of
      the year before. */
  function GoToPrevMonth(s: CalendarState): (r: CalendarState)
    ensures r.(selectedMonth := s.selectedMonth, selectedYear := s.selectedYear) == s
    ensures 0 <= s.selectedMonth < 12 ==> 0 <= r.selectedMonth < 12
    ensures 12 * r.selectedYear + r.selectedMonth == 12 * s.selectedYear + s.selectedMonth - 1
  {
    if s.selectedMonth == 0 then SetSelectedYear(SetSelectedMonth(s, 11), s.selectedYear - 1)
    else SetSelectedMonth(s, s.selectedMonth - 1)
  }

  /** `goToNextMonth`: December goes on to January of the next year. */
  function GoToNextMonth(s: CalendarState): (r: CalendarState)
    ensures r.(selectedMonth := s.selectedMonth, selectedYear := s.selectedYear) == s
    ensures 0 <= s.selectedMonth < 12 ==> 0 <= r.selectedMonth < 12
    ensures 12 * r.selectedYear + r.selectedMonth == 12 * s.selectedYear + s.selectedMonth + 1
  {
    if s.selectedMonth == 11 then SetSelectedYear(SetSelectedMonth(s, 0), s.selectedYear + 1)
    else SetSelectedMonth(s, s.selectedMonth + 1)
  }

  /** For a month in range, the two arrows undo each other. */
  lemma PrevNextInverse(s: CalendarState)
    requires 0 <= s.selectedMonth < 12
    ensures GoToNextMonth(GoToPrevMonth(s)) == s
    ensures GoToPrevMonth(GoToNextMonth(s)) == s
  {
  }

  /** The arrows land where `new Date(year, month ∓ 1, 1)` would: the month
      shown next is the neighbouring month of the calendar itself. */
  lemma ArrowsAgreeWithDateRollover(s: CalendarState)
    requires 0 <= s.selectedMonth < 12
    ensures var p := GoToPrevMonth(s);
            p.selectedMonth == NormalMonth(s.selectedMonth - 1)
            && p.selectedYear == NormalYear(s.selectedMonth - 1, s.selectedYear)
    ensures var q := GoToNextMonth(s);
            q.selectedMonth == NormalMonth(s.selectedMonth + 1)
            && q.selectedYear == NormalYear(s.selectedMonth + 1, s.selectedYear)
  {
  }

  /** The year view's arrows. */
  function GoToPrevYear(s: CalendarState): (r: CalendarState)
    ensures r.selectedYear == s.selectedYear - 1 && r.(selectedYear := s.selectedYear) == s
  {
    SetSelectedYear(s, s.selectedYear - 1)
  }

  function GoToNextYear(s: CalendarState): (r: CalendarState)
    ensures r.selectedYear == s.selectedYear + 1 && r.(selectedYear := s.selectedYear) == s
  {
    SetSelectedYear(s, s.selectedYear + 1)
  }

  lemma YearArrowsInverse(s: CalendarState)
    ensures GoToNextYear(GoToPrevYear(s)) == s && GoToPrevYear(GoToNextYear(s)) == s
  {
  }

  /** `selectMonth`: tapping a month of the year view opens that month. */
  function SelectMonth(s: CalendarState, month: int): (r: CalendarState)
    ensures r.selectedMonth == month && r.viewMode == MonthView
    ensures r.(selectedMonth := s.selectedMonth, viewMode := s.viewMode) == s
  {
    SetViewMode(SetSelectedMonth(s, month), MonthView)
  }

  /** Selecting a month keeps the year, so the month opened is the one
      whose mini month was tapped; a second tap changes nothing. */
  lemma SelectMonthOpensTappedMonth(s: CalendarState, month: int)
    requires s.selectedYear >= 100
    ensures MonthGrid(SelectMonth(s, month).selectedMonth, SelectMonth(s, month).selectedYear)
            == MonthGrid(month, s.selectedYear)
    ensures SelectMonth(SelectMonth(s, month), month) == SelectMonth(s, month)
  {
  }

  /** `month.slice(0, 3)`: the year view's month names. */
  function MonthAbbreviation(month: nat): (a: string)
    requires month < 12
    ensures |a| == 3 && a == Months[month][..3]
  {
    Months[month][..3]
  }

  /** The twelve abbreviations are all different (they also key the cards). */
  lemma MonthAbbreviationsDistinct(m1: nat, m2: nat)
    requires m1 < 12 && m2 < 12 && m1 != m2
    ensures MonthAbbreviation(m1) != MonthAbbreviation(m2)
  {
    var a := ["Jan", "Feb", "Mar", "Apr", "May", "Jun", "Jul", "Aug", "Sep", "Oct", "Nov", "Dec"];
    assert forall m :: 0 <= m < 12 ==> MonthAbbreviation(m) == a[m];
  }

  // ----- Day keys and selection -----

  /** The `YYYY-MM-DD` key the month view builds for a day: the year as
      written, then the 1-based month and the day padded to two digits. */
  function DateKey(year: int, month: int, day: int): (k: string)
    ensures StartsWith(k, IntToString(year) + "-")
    ensures 0 <= month < 99 && 0 <= day < 100 ==>
              && |k| == |IntToString(year)| + 6 && k[|k| - 6] == '-' && k[|k| - 3] == '-'
              && AllDigits(k[|k| - 5..|k| - 3]) && ParseDecimal(k[|k| - 5..|k| - 3]) == month + 1
              && AllDigits(k[|k| - 2..]) && ParseDecimal(k[|k| - 2..]) == day
  {
    var y, m, d := IntToString(year), Pad2(month + 1), Pad2(day);
    KeyFields(y, m, d);
    if 0 <= month < 99 && 0 <= day < 100 then
      Pad2Field(month + 1);
      Pad2Field(day);
      y + "-" + m + "-" + d
    else
      y + "-" + m + "-" + d
  }

  /** Where the fields of `y-m-d` sit, counting the last two from the end. */
  lemma KeyFields(y: string, m: string, d: string)
    ensures var k := y + "-" + m + "-" + d;
            && StartsWith(k, y + "-")
            && (|m| == 2 && |d| == 2 ==>
                  |k| == |y| + 6 && k[|k| - 6] == '-' && k[|k| - 3] == '-' && k[|k| - 5..|k| - 3] == m && k[|k| - 2..] == d)
  {
    var k := y + "-" + m + "-" + d;
    assert k[..|y| + 1] == y + "-";
    if |m| == 2 && |d| == 2 {
      assert k[|k| - 5..|k| - 3] == m;
      assert k[|k| - 2..] == d;
    }
  }

  /** Keys of days with month and day below 100 differ whenever the dates do. */
  lemma DateKeyInjective(y1: int, m1: int, d1: int, y2: int, m2: int, d2: int)
    requires 0 <= m1 < 99 && 0 <= d1 < 100 && 0 <= m2 < 99 && 0 <= d2 < 100
    ensures DateKey(y1, m1, d1) == DateKey(y2, m2, d2) <==> y1 == y2 && m1 == m2 && d1 == d2
  {
    var k1, k2 := DateKey(y1, m1, d1), DateKey(y2, m2, d2);
    if k1 == k2 {
      var a, b := IntToString(y1), IntToString(y2);
      assert |a| == |b|;
      assert a == k1[..|a|] && b == k2[..|b|];
      IntToStringInjective(y1, y2);
    }
  }

  /** A four-digit year. */
  lemma FourDigits(n: nat)
    requires 1000 <= n < 10000
    ensures |Decimal(n)| == 4
  {
    DecimalLength(n / 100);
    assert n / 10 / 10 == n / 100;
  }

  /** The fields of a `YYYY-MM-DD` string sit at fixed positions. */
  lemma IsoFields(y: string, m: string, d: string)
    requires |y| == 4 && |m| == 2 && |d| == 2
    ensures var k := y + "-" + m + "-" + d;
            |k| == 10 && k[4] == '-' && k[7] == '-' && k[..4] == y && k[5..7] == m && k[8..] == d
  {
  }

  /** For years 1000..9999 the key is an ISO 8601 calendar date in the
      extended format, and its three fields read back as year, month and day. */
  lemma DateKeyIsIsoDate(year: int, month: int, day: int)
    requires 1000 <= year <= 9999 && 0 <= month < 12 && 1 <= day <= 31
    ensures var k := DateKey(year, month, day);
            && |k| == 10 && k[4] == '-' && k[7] == '-'
            && AllDigits(k[..4]) && AllDigits(k[5..7]) && AllDigits(k[8..])
            && ParseDecimal(k[..4]) == year && ParseDecimal(k[5..7]) == month + 1 && ParseDecimal(k[8..]) == day
  {
    FourDigits(year);
    ParseDecimalInvertsDecimal(year);
    Pad2Field(month + 1);
    Pad2Field(day);
    assert IntToString(year) == Decimal(year);
    IsoFields(Decimal(year), Pad2(month + 1), Pad2(day));
  }

  /** `selectDay`: remembers the day's key and opens the day view. */
  function SelectDay(s: CalendarState, day: int): (r: CalendarState)
    ensures r.viewMode == DayView
    ensures r.selectedDate == DateKey(s.selectedYear, s.selectedMonth, day)
    ensures r.(viewMode := s.viewMode, selectedDate := s.selectedDate) == s
  {
    SetViewMode(SetSelectedDate(s, DateKey(s.selectedYear, s.selectedMonth, day)), DayView)
  }

  /** `isSelected(day)`: the day's key is the selected date. */
  predicate IsSelected(s: CalendarState, day: int): (b: bool)
    ensures b ==> StartsWith(s.selectedDate, IntToString(s.selectedYear) + "-")
    ensures b && 0 <= s.selectedMonth < 99 && 0 <= day < 100 ==>
              var k := s.selectedDate;
              && |k| >= 6 && AllDigits(k[|k| - 5..|k| - 3]) && ParseDecimal(k[|k| - 5..|k| - 3]) == s.selectedMonth + 1
              && AllDigits(k[|k| - 2..]) && ParseDecimal(k[|k| - 2..]) == day
  {
    DateKey(s.selectedYear, s.selectedMonth, day) == s.selectedDate
  }

  /** After selecting a day, that day and no other day of the month is highlighted. */
  lemma SelectedDayIsUnique(s: CalendarState, d: nat, e: nat)
    requires d < 100 && e < 100
    ensures IsSelected(SelectDay(s, d), e) <==> d == e
  {
    if IsSelected(SelectDay(s, d), e) {
      var prefix := IntToString(s.selectedYear) + "-" + Pad2(s.selectedMonth + 1) + "-";
      Pad2Field(d);
      Pad2Field(e);
      assert DateKey(s.selectedYear, s.selectedMonth, d) == prefix + Pad2(d);
      assert DateKey(s.selectedYear, s.selectedMonth, e) == prefix + Pad2(e);
      assert Pad2(d) == (prefix + Pad2(d))[|prefix|..];
      assert Pad2(e) == (prefix + Pad2(e))[|prefix|..];
    }
  }

  /** A tap on a grid cell: padding cells are disabled, and a day cell
      selects its day (`day && selectDay(day)`, so a day 0 would not). */
  function TapCell(s: CalendarState, cell: Cell): (r: CalendarState)
    ensures cell.Blank? || cell.day == 0 ==> r == s
    ensures cell.DayCell? && cell.day != 0 ==> r.viewMode == DayView && IsSelected(r, cell.day)
  {
    match cell
    case Blank => s
    case DayCell(d) => if d == 0 then s else SelectDay(s, d)
  }

  /** Every tap on a grid cell either does nothing (padding) or selects
      the day printed in it; `MonthGrid` is the grid with the month's own
      first weekday and length. */
  lemma TapOnGrid(s: CalendarState, firstDay: nat, n: nat, i: nat)
    requires i < firstDay + n
    ensures var cell := Grid(firstDay, n)[i];
            (i < firstDay ==> TapCell(s, cell) == s)
            && (i >= firstDay ==> TapCell(s, cell) == SelectDay(s, i - firstDay + 1))
  {
    var g := Grid(firstDay, n);
    if i < firstDay {
      assert g[i] == Blank;
    } else {
      var d := i - firstDay + 1;
      assert g[i] == DayCell(d);
      assert TapCell(s, DayCell(d)) == SelectDay(s, d);
    }
  }
}

=== FILE: calendar_widget.dfy ===
/** The home-screen calendar widget (`src/components/CalendarWidget.tsx`):
    the same month grid and month arrows as the full calendar, today's
    highlight, and the one-letter weekday headers. Today's date is a
    parameter. */
module CalendarWidget {
  import opened CalendarStore
  import opened CalendarView

  /** Today's local date as the clock reports it (`getFullYear`,
      `getMonth`, `getDate`). */
  datatype Today = Today(year: int, month: int, date: int)

  /** `isToday(day)`: the widget shows the current month and `day` is today's date. */
  predicate IsToday(s: CalendarState, today: Today, day: int): (b: bool)
    ensures b ==> DateKey(s.selectedYear, s.selectedMonth, day) == DateKey(today.year, today.month, today.date)
  {
    s.selectedMonth == today.month && s.selectedYear == today.year && day == today.date
  }

  /** For months and days below 100, a day carries today's highlight exactly
      when its `YYYY-MM-DD` key in the shown month is today's key. */
  lemma TodayIsTodaysKey(s: CalendarState, today: Today, day: int)
    requires 0 <= s.selectedMonth < 99 && 0 <= day < 100 && 0 <= today.month < 99 && 0 <= today.date < 100
    ensures IsToday(s, today, day) <==>
              DateKey(s.selectedYear, s.selectedMonth, day) == DateKey(today.year, today.month, today.date)
  {
    DateKeyInjective(s.selectedYear, s.selectedMonth, day, today.year, today.month, today.date);
  }

  /** Cells of the widget's grid that carry today's highlight. */
  ghost predicate HighlightedAt(s: CalendarState, today: Today, i: int)
    requires s.selectedYear >= 100
  {
    var cells := MonthGrid(s.selectedMonth, s.selectedYear);
    0 <= i < |cells| && cells[i].DayCell? && IsToday(s, today, cells[i].day)
  }

  /** At most one cell is highlighted, and only while the widget shows the
      current month; then exactly one is, provided today is a day of that
      month. */
  lemma TodayHighlightedOnce(s: CalendarState, today: Today, i: int, j: int)
    requires s.selectedYear >= 100
    ensures HighlightedAt(s, today, i) && HighlightedAt(s, today, j) ==> i == j
    ensures HighlightedAt(s, today, i) ==> s.selectedMonth == today.month && s.selectedYear == today.year
    ensures s.selectedMonth == today.month && s.selectedYear == today.year
            && 1 <= today.date <= DaysInMonth(s.selectedMonth, s.selectedYear) ==>
              HighlightedAt(s, today, FirstDayOfMonth(s.selectedMonth, s.selectedYear) + today.date - 1)
  {
  }

  /** The widget fills its grid as the full calendar does: the blanks
      before the 1st, then day 1 in the 1st's weekday column, through to
      the month's last day in the last cell. */
  lemma WidgetGridShape(s: CalendarState)
    requires s.selectedYear >= 100
    ensures var cells := MonthGrid(s.selectedMonth, s.selectedYear);
            var f := FirstDayOfMonth(s.selectedMonth, s.selectedYear);
            var n := DaysInMonth(s.selectedMonth, s.selectedYear);
            && |cells| == f + n && f < 7
            && cells[f] == DayCell(1) && cells[|cells| - 1] == DayCell(n)
            && forall i :: 0 <= i < f ==> cells[i] == Blank
  {
  }

  /** The widget's month arrows are the calendar's: January steps back to
      December of the previous year, December on to January of the next,
      and any other month moves by one within its year. */
  lemma WidgetArrowsWrap(s: CalendarState)
    requires 0 <= s.selectedMonth < 12
    ensures s.selectedMonth == 0 ==> GoToPrevMonth(s) == s.(selectedMonth := 11, selectedYear := s.selectedYear - 1)
    ensures s.selectedMonth != 0 ==> GoToPrevMonth(s) == s.(selectedMonth := s.selectedMonth - 1)
    ensures s.selectedMonth == 11 ==> GoToNextMonth(s) == s.(selectedMonth := 0, selectedYear := s.selectedYear + 1)
    ensures s.selectedMonth != 11 ==> GoToNextMonth(s) == s.(selectedMonth := s.selectedMonth + 1)
  {
  }

  /** The weekday headers: the first letter of each `DAYS` entry. */
  function DayHeaders(): (hs: seq<string>)
    ensures |hs| == |Days|
    ensures forall i :: 0 <= i < |hs| ==> |hs[i]| == 1 && hs[i][0] == Days[i][0]
  {
    seq(|Days|, i requires 0 <= i < |Days| => [Days[i][0]])
  }

  /** The initials alone repeat: Tuesday and Thursday are both `T`, Sunday
      and Saturday both `S`; only the column tells them apart. */
  lemma DayHeadersSpelled()
    ensures DayHeaders() == ["S", "M", "T", "W", "T", "F", "S"]
    ensures DayHeaders()[2] == DayHeaders()[4] && DayHeaders()[0] == DayHeaders()[6]
  {
  }
}

=== FILE: chat_input.dfy ===
/** The chat composer (`src/components/ChatInput.tsx`): `handleSend`
    sends the trimmed text and clears the box only when there is something
    to send and the input is enabled, and the send button is disabled in
    exactly the other case. Trimming follows `String.prototype.trim`. */
module ChatInput {
  import opened Types

  /** The characters `trim` strips: ECMAScript WhiteSpace and LineTerminator. */
  predicate IsJsSpace(c: char) {
    || c == '\t' || c == '\n' || c == '\U{000B}' || c == '\U{000C}' || c == '\r' || c == ' '
    || c == '\U{00A0}' || c == '\U{1680}' || ('\U{2000}' <= c <= '\U{200A}')
    || c == '\U{2028}' || c == '\U{2029}' || c == '\U{202F}' || c == '\U{205F}'
    || c == '\U{3000}' || c == '\U{FEFF}'
  }

  /** Drops the leading whitespace: what is left is a suffix of `s` that
      does not start with whitespace, and only whitespace was dropped. */
  function TrimStart(s: string): (r: string)
    ensures |r| <= |s| && r == s[|s| - |r|..]
    ensures r != [] ==> !IsJsSpace(r[0])
    ensures forall i :: 0 <= i < |s| - |r| ==> IsJsSpace(s[i])
  {
    if s != [] && IsJsSpace(s[0]) then TrimStart(s[1..]) else s
  }

  /** Drops the trailing whitespace: a prefix of `s` that does not end with
      whitespace, and only whitespace was dropped. */
  function TrimEnd(s: string): (r: string)
    ensures |r| <= |s| && r == s[..|r|]
    ensures r != [] ==> !IsJsSpace(r[|r| - 1])
    ensures forall i :: |r| <= i < |s| ==> IsJsSpace(s[i])
  {
    if s != [] && IsJsSpace(s[|s| - 1]) then TrimEnd(s[..|s| - 1]) else s
  }

  /** `text.trim()`. */
  function Trim(s: string): (r: string)
    ensures r != [] ==> !IsJsSpace(r[0]) && !IsJsSpace(r[|r| - 1])
  {
    TrimEnd(TrimStart(s))
  }

  /** The trim is a contiguous piece of the text with only whitespace
      around it. */
  lemma TrimIsSlice(s: string)
    ensures var a := |s| - |TrimStart(s)|;
            && a + |Trim(s)| <= |s| && Trim(s) == s[a..a + |Trim(s)|]
            && (forall i :: 0 <= i < a ==> IsJsSpace(s[i]))
            && (forall i :: a + |Trim(s)| <= i < |s| ==> IsJsSpace(s[i]))
  {
    var t := TrimStart(s);
    PrefixOfSuffix(s, |s| - |t|, TrimEnd(t));
  }

  /** A prefix `r` of the suffix `s[a..]`, followed there only by
      whitespace, is the slice `s[a..a + |r|]`, followed in `s` only by
      whitespace. */
  lemma PrefixOfSuffix(s: string, a: nat, r: string)
    requires a <= |s| && |r| <= |s| - a && r == s[a..][..|r|]
    requires forall i :: |r| <= i < |s| - a ==> IsJsSpace(s[a..][i])
    ensures r == s[a..a + |r|]
    ensures forall i :: a + |r| <= i < |s| ==> IsJsSpace(s[i])
  {
    forall i | a + |r| <= i < |s|
      ensures IsJsSpace(s[i])
    {
      assert s[i] == s[a..][i - a];
    }
  }

  /** The trim is empty exactly when the text is all whitespace. */
  lemma TrimEmptyIffBlank(s: string)
    ensures Trim(s) == [] <==> forall i :: 0 <= i < |s| ==> IsJsSpace(s[i])
  {
    TrimIsSlice(s);
  }

  /** Trimming twice is trimming once. */
  lemma TrimIdempotent(s: string)
    ensures Trim(Trim(s)) == Trim(s)
  {
    var r := Trim(s);
    if r != [] {
      assert TrimStart(r) == r;
      assert TrimEnd(r) == r;
    } else {
      assert TrimStart(r) == [];
    }
  }

  /** What pressing send leaves behind: the message handed to `onSend`, if
      any, and the new contents of the text box. */
  datatype SendStep = SendStep(sent: Option<string>, text: string)

  /** `handleSend`. */
  function HandleSend(text: string, disabled: bool): (r: SendStep)
    ensures r.sent.Some? <==> Trim(text) != "" && !disabled
    ensures r.sent.Some? ==> r.sent.value == Trim(text) && r.text == ""
    ensures r.sent.None? ==> r.text == text
  {
    if Trim(text) != "" && !disabled then SendStep(Some(Trim(text)), "") else SendStep(None, text)
  }

  /** The send button's `disabled` prop. */
  predicate SendButtonDisabled(text: string, disabled: bool): (b: bool)
    ensures b <==> HandleSend(text, disabled).sent.None?
    ensures !b ==> |Trim(text)| > 0 && !disabled
  {
    Trim(text) == "" || disabled
  }

  /** The button is disabled exactly when pressing it would send nothing,
      and what it sends has no whitespace at either end and is never blank. */
  lemma ButtonMatchesGuard(text: string, disabled: bool)
    ensures SendButtonDisabled(text, disabled) <==> HandleSend(text, disabled).sent.None?
    ensures var m := HandleSend(text, disabled).sent;
            m.Some? ==> |m.value| > 0 && !IsJsSpace(m.value[0]) && !IsJsSpace(m.value[|m.value| - 1])
  {
  }

  /** A whitespace-only message is never sent, whatever the `disabled` flag. */
  lemma BlankNeverSent(text: string, disabled: bool)
    requires forall i :: 0 <= i < |text| ==> IsJsSpace(text[i])
    ensures HandleSend(text, disabled) == SendStep(None, text)
  {
    TrimEmptyIffBlank(text);
  }
}

=== FILE: chat_store.dfy ===
/** The main chat session (`src/stores/chatStore.ts`): a working list of
    messages shown by the UI, kept alongside the conversation store's
    `'main'` conversation. `sendMessage` is an optimistic update: the user
    message and an empty assistant placeholder are shown at once, and the
    gateway's outcome then either fills the placeholder in or removes it.
    The gateway call, `Date.now()` and ISO clock readings are parameters,
    and each call is one atomic step. */
module ChatStore {
  import opened Types
  import opened Strings
  import CS = ConversationStore

  const MainAgentId: string := "main"

  datatype ChatState = ChatState(messages: seq<Message>, userId: string, isLoading: bool,
                                 isConnected: bool, error: Option<string>)

  /** The chat state together with the conversation store it writes to. */
  datatype Session = Session(chat: ChatState, store: CS.Store)

  const InitialChat: ChatState := ChatState([], "dom", false, false, None)

  /** The gateway's answer to `gateway.send`: a reply text, or a thrown value. */
  datatype GatewayOutcome = Replied(text: string) | Threw(thrown: Thrown)

  /** Clock readings taken during one `sendMessage`: `Date.now()` for the
      two ids and timestamps, and the ISO time of each store write. */
  datatype SendClock = SendClock(userMillis: nat, assistantMillis: nat, userWrite: string, assistantWrite: string)

  function UserMessageId(millis: nat): string {
    "user-" + Decimal(millis)
  }

  function AssistantMessageId(millis: nat): string {
    "assistant-" + Decimal(millis)
  }

  /** The two id families never meet, so the placeholder's id never names
      the user message. */
  lemma UserAndAssistantIdsDiffer(a: nat, b: nat)
    ensures UserMessageId(a) != AssistantMessageId(b)
  {
    assert UserMessageId(a)[0] == 'u' && AssistantMessageId(b)[0] == 'a';
  }

  /** `loadFromConversationStore`: the working list becomes the stored `'main'` messages. */
  function LoadFromConversationStore(s: Session): (r: Session)
    ensures r.chat.messages == CS.GetMessages(s.store, MainAgentId)
    ensures r.chat == s.chat.(messages := r.chat.messages) && r.store == s.store
  {
    s.(chat := s.chat.(messages := CS.GetMessages(s.store, MainAgentId)))
  }

  /** `initSession`: loads the stored history and marks the session
      connected, idle and error-free, unconditionally. */
  function InitSession(s: Session): (r: Session)
    ensures r.chat.messages == CS.GetMessages(s.store, MainAgentId)
    ensures r.chat.isConnected && !r.chat.isLoading && r.chat.error == None
    ensures r.chat.userId == s.chat.userId && r.store == s.store
  {
    var loaded := LoadFromConversationStore(s);
    loaded.(chat := loaded.chat.(isConnected := true, isLoading := false, error := None))
  }

  /** The user message `sendMessage(content)` creates. */
  function UserMessage(content: string, clock: SendClock): Message {
    Message(UserMessageId(clock.userMillis), User, content, clock.userMillis)
  }

  /** The empty assistant placeholder `sendMessage` creates. */
  function Placeholder(clock: SendClock): Message {
    Message(AssistantMessageId(clock.assistantMillis), Assistant, "", clock.assistantMillis)
  }

  /** The state while `sendMessage(content)` awaits the gateway: the user
      message is shown and persisted, the placeholder is shown but not
      persisted, loading is on and the error is cleared. */
  function BeginSend(s: Session, content: string, clock: SendClock): (r: Session)
    ensures r.chat.messages == s.chat.messages + [UserMessage(content, clock), Placeholder(clock)]
    ensures r.chat.messages[|r.chat.messages| - 1].content == ""
    ensures r.store == CS.AddMessage(s.store, MainAgentId, UserMessage(content, clock), clock.userWrite)
    ensures CS.GetMessages(r.store, MainAgentId) == CS.GetMessages(s.store, MainAgentId) + [UserMessage(content, clock)]
    ensures r.chat.isLoading && r.chat.error == None
    ensures r.chat.isConnected == s.chat.isConnected && r.chat.userId == s.chat.userId
  {
    var user := UserMessage(content, clock);
    var afterUser := s.chat.(messages := s.chat.messages + [user], isLoading := true, error := None);
    var store := CS.AddMessage(s.store, MainAgentId, user, clock.userWrite);
    Session(afterUser.(messages := afterUser.messages + [Placeholder(clock)]), store)
  }

  /** Every message carrying id `id` replaced by `by`. */
  function ReplaceById(ms: seq<Message>, id: string, final: Message): (r: seq<Message>)
    ensures |r| == |ms|
    ensures forall i :: 0 <= i < |ms| ==> r[i] == if ms[i].id == id then final else ms[i]
  {
    seq(|ms|, i requires 0 <= i < |ms| => if ms[i].id == id then final else ms[i])
  }

  /** The messages not carrying id `id`, in their original order. */
  function RemoveById(ms: seq<Message>, id: string): (r: seq<Message>)
    ensures |r| <= |ms|
  {
    if ms == [] then []
    else RemoveById(ms[..|ms| - 1], id) + (if ms[|ms| - 1].id == id then [] else [ms[|ms| - 1]])
  }

  /** The settling half of `sendMessage`: on a reply, the placeholder is
      replaced by the finished message, which is persisted, and the session
      is marked connected; on a thrown value, the error is shown and the
      placeholder removed, with nothing persisted. Loading ends either way. */
  function FinishSend(s: Session, clock: SendClock, outcome: GatewayOutcome): (r: Session)
    ensures !r.chat.isLoading && r.chat.userId == s.chat.userId
    ensures outcome.Replied? ==>
              var final := Placeholder(clock).(content := outcome.text);
              && r.chat.messages == ReplaceById(s.chat.messages, final.id, final)
              && r.store == CS.AddMessage(s.store, MainAgentId, final, clock.assistantWrite)
              && r.chat.isConnected && r.chat.error == s.chat.error
    ensures outcome.Threw? ==>
              && r.chat.messages == RemoveById(s.chat.messages, Placeholder(clock).id)
              && r.store == s.store
              && r.chat.error == Some(MessageOf(outcome.thrown, "Failed to send message"))
              && r.chat.isConnected == s.chat.isConnected
  {
    var placeholder := Placeholder(clock);
    match outcome
    case Replied(text) =>
      var final := placeholder.(content := text);
      var chat := s.chat.(messages := ReplaceById(s.chat.messages, placeholder.id, final),
                          isLoading := false, isConnected := true);
      Session(chat, CS.AddMessage(s.store, MainAgentId, final, clock.assistantWrite))
    case Threw(thrown) =>
      var errored := s.chat.(error := Some(MessageOf(thrown, "Failed to send message")), isLoading := false);
      Session(errored.(messages := RemoveById(errored.messages, placeholder.id)), s.store)
  }

  /** `sendMessage(content)`, from call to settlement. The store keeps the
      user message whatever the outcome, and the reply after it when there
      is one; loading ends either way. */
  function SendMessage(s: Session, content: string, clock: SendClock, outcome: GatewayOutcome): (r: Session)
    ensures !r.chat.isLoading && r.chat.userId == s.chat.userId
    ensures outcome.Replied? ==>
              && CS.GetMessages(r.store, MainAgentId)
                   == CS.GetMessages(s.store, MainAgentId) + [UserMessage(content, clock), Placeholder(clock).(content := outcome.text)]
              && r.chat.isConnected && r.chat.error == None
    ensures outcome.Threw? ==>
              && CS.GetMessages(r.store, MainAgentId) == CS.GetMessages(s.store, MainAgentId) + [UserMessage(content, clock)]
              && r.chat.error == Some(MessageOf(outcome.thrown, "Failed to send message"))
              && r.chat.isConnected == s.chat.isConnected
  {
    FinishSend(BeginSend(s, content, clock), clock, outcome)
  }

  /** `clearMessages`: forgets the `'main'` conversation, empties the
      working list and clears the error. */
  function ClearMessages(s: Session): (r: Session)
    ensures r.chat.messages == [] && r.chat.error == None
    ensures r.store == CS.ClearConversation(s.store, MainAgentId)
    ensures CS.GetMessages(r.store, MainAgentId) == []
    ensures r.chat.isLoading == s.chat.isLoading && r.chat.isConnected == s.chat.isConnected
  {
    Session(s.chat.(messages := [], error := None), CS.ClearConversation(s.store, MainAgentId))
  }

  // ----- Properties of whole exchanges -----

  /** No message in `ms` carries id `id`. */
  predicate IdFresh(ms: seq<Message>, id: string) {
    forall i :: 0 <= i < |ms| ==> ms[i].id != id
  }

  lemma {:induction false} RemoveByIdFresh(ms: seq<Message>, id: string)
    requires IdFresh(ms, id)
    ensures RemoveById(ms, id) == ms
  {
    if ms != [] {
      RemoveByIdFresh(ms[..|ms| - 1], id);
    }
  }

  /** Removing by id keeps exactly the messages with another id. */
  lemma {:induction false} RemoveByIdMembers(ms: seq<Message>, id: string, m: Message)
    ensures m in RemoveById(ms, id) <==> m in ms && m.id != id
  {
    if ms != [] {
      var init := ms[..|ms| - 1];
      RemoveByIdMembers(init, id, m);
      assert ms == init + [ms[|ms| - 1]];
    }
  }

  lemma {:induction false} RemoveByIdAppend(ms: seq<Message>, extra: seq<Message>, id: string)
    ensures RemoveById(ms + extra, id) == RemoveById(ms, id) + RemoveById(extra, id)
    decreases |extra|
  {
    if extra == [] {
      assert ms + extra == ms;
    } else {
      var init, last := extra[..|extra| - 1], extra[|extra| - 1];
      var kept := if last.id == id then [] else [last];
      assert (ms + extra)[..|ms + extra| - 1] == ms + init;
      assert (ms + extra)[|ms + extra| - 1] == last;
      assert RemoveById(ms + extra, id) == RemoveById(ms + init, id) + kept;
      assert RemoveById(extra, id) == RemoveById(init, id) + kept;
      RemoveByIdAppend(ms, init, id);
    }
  }

  /** A reply with a fresh placeholder id ends with exactly the user message
      and the reply appended, on screen and in the store, in that order. */
  lemma SendReplied(s: Session, content: string, clock: SendClock, reply: string)
    requires IdFresh(s.chat.messages, Placeholder(clock).id)
    ensures var r := SendMessage(s, content, clock, Replied(reply));
            var final := Placeholder(clock).(content := reply);
            && r.chat.messages == s.chat.messages + [UserMessage(content, clock), final]
            && CS.GetMessages(r.store, MainAgentId)
                 == CS.GetMessages(s.store, MainAgentId) + [UserMessage(content, clock), final]
            && r.chat.isConnected && !r.chat.isLoading && r.chat.error == None
  {
    UserAndAssistantIdsDiffer(clock.userMillis, clock.assistantMillis);
  }

  /** A thrown gateway call with a fresh placeholder id leaves only the user
      message appended, on screen and in the store, and shows the error. */
  lemma SendFailed(s: Session, content: string, clock: SendClock, thrown: Thrown)
    requires IdFresh(s.chat.messages, Placeholder(clock).id)
    ensures var r := SendMessage(s, content, clock, Threw(thrown));
            && r.chat.messages == s.chat.messages + [UserMessage(content, clock)]
            && CS.GetMessages(r.store, MainAgentId) == CS.GetMessages(s.store, MainAgentId) + [UserMessage(content, clock)]
            && r.chat.error.Some? && !r.chat.isLoading && r.chat.isConnected == s.chat.isConnected
  {
    var p := Placeholder(clock);
    var u := UserMessage(content, clock);
    UserAndAssistantIdsDiffer(clock.userMillis, clock.assistantMillis);
    RemoveByIdAppend(s.chat.messages, [u, p], p.id);
    RemoveByIdFresh(s.chat.messages, p.id);
    assert [u, p][..1] == [u];
    assert RemoveById([u], p.id) == [u];
  }

  /** Whatever the gateway does, the user message stays in both the working
      list and the store, in the slot right after the previous messages. */
  lemma UserMessageSurvives(s: Session, content: string, clock: SendClock, outcome: GatewayOutcome)
    requires IdFresh(s.chat.messages, Placeholder(clock).id)
    ensures var r := SendMessage(s, content, clock, outcome);
            var n := |s.chat.messages|;
            && n < |r.chat.messages| && r.chat.messages[n] == UserMessage(content, clock)
            && CS.GetMessages(r.store, MainAgentId)[|CS.GetMessages(s.store, MainAgentId)|] == UserMessage(content, clock)
  {
    match outcome
    case Replied(t) => SendReplied(s, content, clock, t);
    case Threw(e) => SendFailed(s, content, clock, e);
  }

  /** The working list mirrors the stored `'main'` conversation. */
  predicate InSync(s: Session) {
    s.chat.messages == CS.GetMessages(s.store, MainAgentId)
  }

  /** `initSession` and `clearMessages` bring the working list in line with
      the store, and `sendMessage` (with a fresh placeholder id) keeps it so,
      whether the gateway replies or throws. */
  lemma OperationsKeepInSync(s: Session, content: string, clock: SendClock, outcome: GatewayOutcome)
    ensures InSync(InitSession(s)) && InSync(ClearMessages(s))
    ensures InSync(s) && IdFresh(s.chat.messages, Placeholder(clock).id) ==>
              InSync(SendMessage(s, content, clock, outcome))
  {
    if InSync(s) && IdFresh(s.chat.messages, Placeholder(clock).id) {
      match outcome
      case Replied(t) => SendReplied(s, content, clock, t);
      case Threw(e) => SendFailed(s, content, clock, e);
    }
  }
}

=== FILE: conversation_store.dfy ===
/** The persisted conversation store (`src/stores/conversationStore.ts`):
    a map from agent id to that agent's conversation. Clock readings
    (`new Date().toISOString()` and today's `YYYY-MM-DD` prefix) are
    parameters; durable persistence is not modelled. */
module ConversationStore {
  import opened Types
  import opened Strings

  /** `startedAt` and `updatedAt` are ISO-8601 timestamp strings. */
  datatype Conversation = Conversation(agentId: string, messages: seq<Message>,
                                       startedAt: string, updatedAt: string)

  type Store = map<string, Conversation>

  const Empty: Store := map[]

  /** What the store's operations maintain: every conversation sits under
      its own agent id and holds at least one message (conversations are
      created lazily by the first `addMessage`). */
  ghost predicate Valid(store: Store) {
    forall a :: a in store ==> store[a].agentId == a && |store[a].messages| > 0
  }

  /** `getMessages`: the agent's messages, or none when it has no conversation. */
  function GetMessages(store: Store, agentId: string): (ms: seq<Message>)
    ensures agentId !in store ==> ms == []
    ensures agentId in store ==> ms == store[agentId].messages
  {
    if agentId in store then store[agentId].messages else []
  }

  /** `addMessage`: appends the message to the agent's conversation,
      creating it when absent. `startedAt` falls back to `now` when absent
      or empty (JavaScript `||`); `updatedAt` is always `now`. */
  function AddMessage(store: Store, agentId: string, message: Message, now: string): (r: Store)
    ensures r.Keys == store.Keys + {agentId}
    ensures GetMessages(r, agentId) == GetMessages(store, agentId) + [message]
    ensures r[agentId].agentId == agentId && r[agentId].updatedAt == now
    ensures r[agentId].startedAt ==
              if agentId in store && store[agentId].startedAt != "" then store[agentId].startedAt else now
    ensures forall a :: a in store && a != agentId ==> r[a] == store[a]
    ensures Valid(store) ==> Valid(r)
  {
    var existing := if agentId in store then Some(store[agentId]) else None;
    var startedAt := if existing.Some? && existing.value.startedAt != "" then existing.value.startedAt else now;
    var messages := if existing.Some? then existing.value.messages else [];
    store[agentId := Conversation(agentId, messages + [message], startedAt, now)]
  }

  /** `clearConversation`: drops the agent's conversation, if any. */
  function ClearConversation(store: Store, agentId: string): (r: Store)
    ensures r.Keys == store.Keys - {agentId}
    ensures GetMessages(r, agentId) == []
    ensures forall a :: a in r ==> r[a] == store[a]
    ensures Valid(store) ==> Valid(r)
  {
    map a | a in store && a != agentId :: store[a]
  }

  /** `clearAllConversations`. */
  function ClearAllConversations(store: Store): (r: Store)
    ensures forall a :: GetMessages(r, a) == []
    ensures Valid(r)
  {
    Empty
  }

  /** The number of messages in `ms` with the given role. */
  function CountRole(ms: seq<Message>, role: Role): (n: nat)
    ensures n <= |ms|
  {
    if ms == [] then 0
    else CountRole(ms[..|ms| - 1], role) + (if ms[|ms| - 1].role == role then 1 else 0)
  }

  /** The text `getConversationSummary` builds from the two counts. */
  function SummaryText(total: nat, fromUser: nat): string {
    Decimal(total) + " messages (" + Decimal(fromUser) + " from user)"
  }

  /** `getConversationSummary`: empty for an absent agent, otherwise
      "N messages (U from user)" with U never above N. */
  function GetConversationSummary(store: Store, agentId: string): (s: string)
    ensures agentId !in store <==> s == ""
    ensures agentId in store ==>
              var ms := store[agentId].messages;
              CountRole(ms, User) <= |ms| && s == SummaryText(|ms|, CountRole(ms, User))
  {
    if agentId !in store then ""
    else
      var ms := store[agentId].messages;
      SummaryText(|ms|, CountRole(ms, User))
  }

  /** Whether a conversation was started or updated on the day `today`
      (a `YYYY-MM-DD` prefix of its ISO timestamps). */
  predicate TouchedOn(c: Conversation, today: string) {
    StartsWith(c.startedAt, today) || StartsWith(c.updatedAt, today)
  }

  /** `getAllConversationsForDay`: the conversations touched today. */
  function GetAllConversationsForDay(store: Store, today: string): (r: set<Conversation>)
    ensures forall c :: c in r <==> c in store.Values && TouchedOn(c, today)
    ensures Valid(store) ==> forall c :: c in r ==> c.agentId in store && store[c.agentId] == c
  {
    set a | a in store && TouchedOn(store[a], today) :: store[a]
  }

  // ----- Properties relating several operations -----

  /** Appending one message bumps the total by one, and the user count by
      one exactly when the message is the user's. */
  lemma {:induction false} CountRoleAppend(ms: seq<Message>, m: Message, role: Role)
    ensures CountRole(ms + [m], role) == CountRole(ms, role) + (if m.role == role then 1 else 0)
  {
    assert (ms + [m])[..|ms + [m]| - 1] == ms;
  }

  /** Messages added one after another for one agent come back in call order. */
  lemma {:induction false} AddMessagesInOrder(store: Store, agentId: string, ms: seq<Message>, now: string)
    ensures GetMessages(AddAll(store, agentId, ms, now), agentId) == GetMessages(store, agentId) + ms
  {
    if ms != [] {
      var init := ms[..|ms| - 1];
      AddMessagesInOrder(store, agentId, init, now);
      assert init + [ms[|ms| - 1]] == ms;
    }
  }

  /** Repeated `addMessage` for one agent. */
  function AddAll(store: Store, agentId: string, ms: seq<Message>, now: string): Store {
    if ms == [] then store
    else AddMessage(AddAll(store, agentId, ms[..|ms| - 1], now), agentId, ms[|ms| - 1], now)
  }

  /** After a clear, the next `addMessage` behaves as on a fresh store:
      the conversation holds only the new message and starts now. */
  lemma AddAfterClearStartsFresh(store: Store, agentId: string, m: Message, now: string)
    ensures var r := AddMessage(ClearConversation(store, agentId), agentId, m, now);
            r[agentId] == Conversation(agentId, [m], now, now)
  {
  }

  /** Clearing is idempotent, and clearing an absent agent changes nothing. */
  lemma ClearConversationIdempotent(store: Store, agentId: string)
    ensures ClearConversation(ClearConversation(store, agentId), agentId) == ClearConversation(store, agentId)
    ensures agentId !in store ==> ClearConversation(store, agentId) == store
  {
  }

  /** Clearing everything twice is clearing it once. */
  lemma ClearAllIdempotent(store: Store)
    ensures ClearAllConversations(ClearAllConversations(store)) == ClearAllConversations(store)
  {
  }

  /** The summary counts follow `addMessage`: the total grows by one, and
      the user count by one exactly for a user message. */
  lemma SummaryAfterAdd(store: Store, agentId: string, m: Message, now: string)
    ensures var ms := GetMessages(store, agentId);
            GetConversationSummary(AddMessage(store, agentId, m, now), agentId)
              == SummaryText(|ms| + 1, CountRole(ms, User) + (if m.role == User then 1 else 0))
  {
    CountRoleAppend(GetMessages(store, agentId), m, User);
  }

  /** The summary's leading number is the message count: different totals
      never produce the same summary. */
  lemma SummaryDeterminesTotal(t1: nat, u1: nat, t2: nat, u2: nat)
    requires SummaryText(t1, u1) == SummaryText(t2, u2)
    ensures t1 == t2
  {
    var s := SummaryText(t1, u1);
    var k1 := |Decimal(t1)|;
    var k2 := |Decimal(t2)|;
    assert s[k1] == ' ' && s[k2] == ' ';
    assert k1 == k2;
    assert Decimal(t1) == s[..k1] == Decimal(t2);
    DecimalInjective(t1, t2);
  }

  /** A conversation written to at `now` on day `today` is in that day's batch. */
  lemma AddedTodayIsInDayBatch(store: Store, agentId: string, m: Message, now: string, today: string)
    requires StartsWith(now, today)
    ensures var r := AddMessage(store, agentId, m, now);
            r[agentId] in GetAllConversationsForDay(r, today)
  {
  }

  /** A conversation with neither timestamp on `today` is left out of the
      batch, whatever its size. */
  lemma StaleConversationExcluded(store: Store, agentId: string, today: string)
    requires agentId in store
    requires !StartsWith(store[agentId].startedAt, today) && !StartsWith(store[agentId].updatedAt, today)
    ensures store[agentId] !in GetAllConversationsForDay(store, today)
  {
  }
}

=== FILE: gateway.dfy ===
/** The gateway client (`src/api/gateway.ts`): status checks of the plain
    requests, the defaults `spawn` fills in, and the line framing and
    dispatch of `sendAndStream`. HTTP responses are inputs; a response
    body is the sequence of (already decoded) text chunks it delivers and
    how it ends; `JSON.parse` is an oracle function. */
module Gateway {
  import opened Types
  import opened Strings

  /** `res.ok`: a 2xx status. */
  predicate IsOk(status: nat) {
    200 <= status <= 299
  }

  /** A response to a plain request: its status and its JSON value. */
  datatype HttpResponse<J> = HttpResponse(status: nat, json: J)

  /** `if (!res.ok) throw new Error(`${what}: ${res.status}`)`, else the JSON value. */
  function CheckStatus<J>(r: HttpResponse<J>, what: string): (res: Result<J, string>)
    ensures res.Success? <==> IsOk(r.status)
    ensures res.Success? ==> res.value == r.json
    ensures res.Failure? ==> StartsWith(res.error, what + ": ")
  {
    if IsOk(r.status) then Success(r.json) else Failure(what + ": " + Decimal(r.status))
  }

  /** A failed request's message carries its status code, readable after the prefix. */
  lemma StatusInFailureMessage<J>(r: HttpResponse<J>, what: string)
    requires !IsOk(r.status)
    ensures var e := CheckStatus(r, what).error;
            var digits := e[|what| + 2..];
            AllDigits(digits) && ParseDecimal(digits) == r.status
  {
    var e := CheckStatus(r, what).error;
    assert e[|what| + 2..] == Decimal(r.status);
    ParseDecimalInvertsDecimal(r.status);
  }

  /** `getSessions`: the session list, or a failure for a non-2xx status. */
  function GetSessions<J>(r: HttpResponse<J>): (res: Result<J, string>)
    ensures res.Success? <==> IsOk(r.status)
    ensures res.Failure? ==> StartsWith(res.error, "Failed to get sessions: ")
  {
    CheckStatus(r, "Failed to get sessions")
  }

  datatype SpawnOptions = SpawnOptions(sessionLabel: Option<string>, model: Option<string>, channel: Option<string>)

  datatype SpawnBody = SpawnBody(sessionLabel: string, model: string, channel: string)

  /** `option || fallback` on an optional string: missing and empty both fall back. */
  function OrDefault(o: Option<string>, fallback: string): (s: string)
    ensures o.Some? && o.value != "" ==> s == o.value
    ensures o.None? || o.value == "" ==> s == fallback
  {
    if o.Some? && o.value != "" then o.value else fallback
  }

  /** The body `spawn` posts: every field given and non-empty is kept, the
      rest default to `'mobile'`, `'anthropic/claude-sonnet-4'` and `'mobile'`. */
  function SpawnRequestBody(options: SpawnOptions): (b: SpawnBody)
    ensures b.sessionLabel != "" && b.model != "" && b.channel != ""
    ensures b.sessionLabel == OrDefault(options.sessionLabel, "mobile")
    ensures b.model == OrDefault(options.model, "anthropic/claude-sonnet-4")
    ensures b.channel == OrDefault(options.channel, "mobile")
  {
    SpawnBody(OrDefault(options.sessionLabel, "mobile"),
              OrDefault(options.model, "anthropic/claude-sonnet-4"),
              OrDefault(options.channel, "mobile"))
  }

  /** Posting a body's own fields again changes nothing: the defaults are a fixpoint. */
  lemma SpawnDefaultsIdempotent(options: SpawnOptions)
    ensures var b := SpawnRequestBody(options);
            SpawnRequestBody(SpawnOptions(Some(b.sessionLabel), Some(b.model), Some(b.channel))) == b
  {
  }

  /** `spawn`: the session reply, or a failure for a non-2xx status. */
  function Spawn<J>(r: HttpResponse<J>): (res: Result<J, string>)
    ensures res.Success? <==> IsOk(r.status)
    ensures res.Failure? ==> StartsWith(res.error, "Failed to spawn session: ")
  {
    CheckStatus(r, "Failed to spawn session")
  }

  datatype SendBody = SendBody(sessionId: string, message: string)

  /** `send`: posts `{sessionId, message}`; resolves with no value, or
      fails for a non-2xx status. */
  function Send(sessionId: string, message: string, status: nat): (res: (SendBody, Result<(), string>))
    ensures res.0 == SendBody(sessionId, message)
    ensures res.1.Success? <==> IsOk(status)
    ensures res.1.Failure? ==> StartsWith(res.1.error, "Failed to send message: ")
  {
    (SendBody(sessionId, message), CheckStatus(HttpResponse(status, ()), "Failed to send message"))
  }

  // ----- sendAndStream -----

  /** How the reader's last `read()` went: `done`, or a thrown value. */
  datatype StreamEnd = Finished | Broke(thrown: Thrown)

  /** A response body: the decoded text of each read, and how reading ended. */
  datatype Body = Body(chunks: seq<string>, end: StreamEnd)

  /** A streaming request's answer: a response with its status and its body
      when it has one, or a `fetch` that rejected before any response. */
  datatype StreamResponse = StreamResponse(status: nat, body: Option<Body>) | FetchRejected(thrown: Thrown)

  /** What `JSON.parse(data)` followed by `.text` gives: a throw (invalid
      JSON, or no object to read `.text` from), or a text, where `""`
      stands for a falsy or missing `.text`. */
  datatype Payload = Unparsable | Parsed(text: string)

  /** One callback invocation, in the order the client makes them. */
  datatype Event = Chunk(text: string) | Done | Error(message: string)

  const DataPrefix: string := "data: "
  const DoneSentinel: string := "[DONE]"

  /** One step of the framer: the buffer plus a new read, cut into the
      complete lines and the unterminated rest that stays buffered. */
  datatype Framed = Framed(lines: seq<string>, buffer: string)

  /** `buffer += chunk; lines = buffer.split('\n'); buffer = lines.pop()`:
      nothing is lost or invented, and no newline stays in the buffer. */
  function Frame(buffer: string, chunk: string): (f: Framed)
    ensures Terminated(f.lines, '\n') + f.buffer == buffer + chunk
    ensures '\n' !in f.buffer
    ensures forall i :: 0 <= i < |f.lines| ==> '\n' !in f.lines[i]
  {
    var parts := Split(buffer + chunk, '\n');
    SplitTerminated(buffer + chunk, '\n');
    Framed(parts[..|parts| - 1], parts[|parts| - 1])
  }

  /** The callbacks one complete line triggers: only `data: ` lines count;
      `[DONE]` signals done; otherwise the parsed `.text` when truthy, the
      raw payload when parsing throws, and nothing when `.text` is falsy. */
  function Dispatch(line: string, parse: string -> Payload): (es: seq<Event>)
    ensures !StartsWith(line, DataPrefix) ==> es == []
    ensures |es| <= 1 && forall e :: e in es ==> !e.Error?
    ensures Done in es <==> line == DataPrefix + DoneSentinel
    ensures forall t :: Chunk(t) in es ==>
              var data := line[|DataPrefix|..];
              (parse(data) == Parsed(t) && t != "") || (parse(data) == Unparsable && t == data)
    ensures StartsWith(line, DataPrefix) && line[|DataPrefix|..] != DoneSentinel ==>
              var data := line[|DataPrefix|..];
              && (parse(data).Parsed? && parse(data).text != "" ==> es == [Chunk(parse(data).text)])
              && (parse(data) == Unparsable ==> es == [Chunk(data)])
              && (parse(data) == Parsed("") ==> es == [])
  {
    if !StartsWith(line, DataPrefix) then []
    else
      var data := line[|DataPrefix|..];
      assert line == DataPrefix + data;
      if data == DoneSentinel then [Done]
      else match parse(data)
        case Parsed(text) => if text != "" then [Chunk(text)] else []
        case Unparsable => [Chunk(data)]
  }

  /** The callbacks for a run of complete lines, in line order. */
  function DispatchAll(lines: seq<string>, parse: string -> Payload): seq<Event> {
    if lines == [] then []
    else DispatchAll(lines[..|lines| - 1], parse) + Dispatch(lines[|lines| - 1], parse)
  }

  /** The newline-terminated lines of a text. */
  function CompleteLines(s: string): seq<string> {
    var parts := Split(s, '\n');
    parts[..|parts| - 1]
  }

  /** The unterminated text after the last newline. */
  function PartialLine(s: string): string {
    var parts := Split(s, '\n');
    parts[|parts| - 1]
  }

  /** The callbacks `sendAndStream` makes, stated over the whole body text at
      once: an error for a non-2xx status or a missing body; otherwise the
      dispatch of every complete line, then `onDone` when reading finished,
      or `onError` when a read threw. A rejected `fetch` happens before the
      `try`, so it makes no callback at all. */
  function StreamEvents(response: StreamResponse, parse: string -> Payload): seq<Event> {
    if response.FetchRejected? then []
    else if !IsOk(response.status) then [Error("Failed to send: " + Decimal(response.status))]
    else match response.body
      case None => [Error("No response body")]
      case Some(body) =>
        DispatchAll(CompleteLines(Concat(body.chunks)), parse)
          + match body.end
            case Finished => [Done]
            case Broke(thrown) => [Error(MessageOf(thrown, "Stream error"))]
  }

  /** The `for (const line of lines)` loop: dispatches lines in order. */
  method DispatchLines(lines: seq<string>, parse: string -> Payload) returns (events: seq<Event>)
    ensures events == DispatchAll(lines, parse)
  {
    events := [];
    var j := 0;
    while j < |lines|
      invariant 0 <= j <= |lines|
      invariant events == DispatchAll(lines[..j], parse)
    {
      assert lines[..j + 1][..j] == lines[..j];
      events := events + Dispatch(lines[j], parse);
      j := j + 1;
    }
    assert lines[..j] == lines;
  }

  lemma {:induction false} DispatchAllAppend(a: seq<string>, b: seq<string>, parse: string -> Payload)
    ensures DispatchAll(a + b, parse) == DispatchAll(a, parse) + DispatchAll(b, parse)
    decreases |b|
  {
    if b == [] {
      assert a + b == a;
    } else {
      var init, last := b[..|b| - 1], b[|b| - 1];
      assert (a + b)[..|a + b| - 1] == a + init;
      assert (a + b)[|a + b| - 1] == last;
      assert DispatchAll(a + b, parse) == DispatchAll(a + init, parse) + Dispatch(last, parse);
      DispatchAllAppend(a, init, parse);
    }
  }

  /** Framing a new read onto the buffer extends the framed text by exactly that read. */
  lemma FrameExtends(processed: seq<string>, buffer: string, chunk: string)
    ensures var f := Frame(buffer, chunk);
            Terminated(processed + f.lines, '\n') + f.buffer == Terminated(processed, '\n') + buffer + chunk
  {
    var f := Frame(buffer, chunk);
    TerminatedAppend(processed, f.lines, '\n');
    calc {
      Terminated(processed + f.lines, '\n') + f.buffer;
      (Terminated(processed, '\n') + Terminated(f.lines, '\n')) + f.buffer;
      Terminated(processed, '\n') + (Terminated(f.lines, '\n') + f.buffer);
      Terminated(processed, '\n') + (buffer + chunk);
    }
  }

  /** `sendAndStream`, read by read: each read is framed onto the buffer
      and the complete lines it yields are dispatched at once. Whatever the
      read boundaries, the callbacks are those of the whole text. The
      returned promise rejects, with the thrown value, exactly when `fetch`
      rejected; every other failure is reported through `onError`. */
  method SendAndStream(response: StreamResponse, parse: string -> Payload)
    returns (events: seq<Event>, rejection: Option<Thrown>)
    ensures events == StreamEvents(response, parse)
    ensures rejection.Some? <==> response.FetchRejected?
    ensures rejection.Some? ==> rejection.value == response.thrown && events == []
  {
    rejection := None;
    if response.FetchRejected? {
      return [], Some(response.thrown);
    }
    if !IsOk(response.status) {
      return [Error("Failed to send: " + Decimal(response.status))], None;
    }
    if response.body.None? {
      return [Error("No response body")], None;
    }
    var chunks := response.body.value.chunks;
    var buffer := "";
    ghost var processed: seq<string> := [];
    events := [];
    var i := 0;
    while i < |chunks|
      invariant 0 <= i <= |chunks|
      invariant '\n' !in buffer
      invariant forall k :: 0 <= k < |processed| ==> '\n' !in processed[k]
      invariant Terminated(processed, '\n') + buffer == Concat(chunks[..i])
      invariant events == DispatchAll(processed, parse)
    {
      var framed := Frame(buffer, chunks[i]);
      var dispatched := DispatchLines(framed.lines, parse);
      DispatchAllAppend(processed, framed.lines, parse);
      FrameExtends(processed, buffer, chunks[i]);
      assert chunks[..i + 1][..i] == chunks[..i];
      assert Concat(chunks[..i + 1]) == Concat(chunks[..i]) + chunks[i];
      events := events + dispatched;
      processed := processed + framed.lines;
      buffer := framed.buffer;
      i := i + 1;
    }
    assert chunks[..i] == chunks;
    SplitOfTerminated(processed, buffer, '\n');
    assert CompleteLines(Concat(chunks)) == processed;
    match response.body.value.end
    case Finished =>
      events := events + [Done];
    case Broke(thrown) =>
      events := events + [Error(MessageOf(thrown, "Stream error"))];
  }

  // ----- Properties of the stream dispatch -----

  /** The number of `onDone` callbacks among `es`. */
  function CountDone(es: seq<Event>): nat {
    if es == [] then 0 else CountDone(es[..|es| - 1]) + (if es[|es| - 1] == Done then 1 else 0)
  }

  /** The number of `data: [DONE]` lines among `lines`. */
  function CountDoneLines(lines: seq<string>): nat {
    if lines == [] then 0
    else CountDoneLines(lines[..|lines| - 1]) + (if lines[|lines| - 1] == DataPrefix + DoneSentinel then 1 else 0)
  }

  lemma {:induction false} CountDoneAppend(a: seq<Event>, b: seq<Event>)
    ensures CountDone(a + b) == CountDone(a) + CountDone(b)
    decreases |b|
  {
    if b == [] {
      assert a + b == a;
    } else {
      var init, last := b[..|b| - 1], b[|b| - 1];
      assert (a + b)[..|a + b| - 1] == a + init;
      assert (a + b)[|a + b| - 1] == last;
      CountDoneAppend(a, init);
    }
  }

  lemma {:induction false} DoneEventsMatchDoneLines(lines: seq<string>, parse: string -> Payload)
    ensures CountDone(DispatchAll(lines, parse)) == CountDoneLines(lines)
  {
    if lines != [] {
      var last := lines[|lines| - 1];
      DoneEventsMatchDoneLines(lines[..|lines| - 1], parse);
      CountDoneAppend(DispatchAll(lines[..|lines| - 1], parse), Dispatch(last, parse));
      var d := Dispatch(last, parse);
      if d != [] {
        assert d == [d[0]];
        assert d[..0] == [];
      }
    }
  }

  /** `[DONE]` does not stop the reader: a stream that chunks to its end
      signals done once per `data: [DONE]` line and once more at the end;
      one whose read throws signals done only for the `[DONE]` lines. */
  lemma DoneCountOnStream(response: StreamResponse, parse: string -> Payload)
    requires response.StreamResponse? && IsOk(response.status) && response.body.Some?
    ensures var body := response.body.value;
            CountDone(StreamEvents(response, parse))
              == CountDoneLines(CompleteLines(Concat(body.chunks))) + (if body.end == Finished then 1 else 0)
  {
    var body := response.body.value;
    var lines := CompleteLines(Concat(body.chunks));
    DoneEventsMatchDoneLines(lines, parse);
    var tail := if body.end == Finished then [Done] else [Error(MessageOf(body.end.thrown, "Stream error"))];
    CountDoneAppend(DispatchAll(lines, parse), tail);
    assert tail[..0] == [];
  }

  /** A non-2xx status or a missing body gives exactly one error and nothing else. */
  lemma RejectedStreamIsOneError(response: StreamResponse, parse: string -> Payload)
    requires response.StreamResponse?
    requires !IsOk(response.status) || response.body.None?
    ensures var es := StreamEvents(response, parse);
            |es| == 1 && es[0].Error?
  {
  }

  /** A read that throws ends the callbacks with one error, after the
      chunks of every line completed before it. */
  lemma BrokenStreamEndsInError(response: StreamResponse, parse: string -> Payload)
    requires response.StreamResponse? && IsOk(response.status)
    requires response.body.Some? && response.body.value.end.Broke?
    ensures var es := StreamEvents(response, parse);
            var before := DispatchAll(CompleteLines(Concat(response.body.value.chunks)), parse);
            && es[..|es| - 1] == before && es[|es| - 1].Error?
            && forall k :: 0 <= k < |before| ==> !before[k].Error?
  {
    var lines := CompleteLines(Concat(response.body.value.chunks));
    NoErrorsFromLines(lines, parse);
  }

  lemma {:induction false} NoErrorsFromLines(lines: seq<string>, parse: string -> Payload)
    ensures forall k :: 0 <= k < |DispatchAll(lines, parse)| ==> !DispatchAll(lines, parse)[k].Error?
  {
    if lines != [] {
      NoErrorsFromLines(lines[..|lines| - 1], parse);
      var d := Dispatch(lines[|lines| - 1], parse);
      assert forall e :: e in d ==> !e.Error?;
    }
  }

  /** The text after the last newline is never dispatched: bodies that
      differ only there make the same callbacks. */
  lemma PartialLineNeverDispatched(lines: seq<string>, partial1: string, partial2: string)
    requires forall k :: 0 <= k < |lines| ==> '\n' !in lines[k]
    requires '\n' !in partial1 && '\n' !in partial2
    ensures CompleteLines(Terminated(lines, '\n') + partial1) == lines
    ensures CompleteLines(Terminated(lines, '\n') + partial1) == CompleteLines(Terminated(lines, '\n') + partial2)
    ensures PartialLine(Terminated(lines, '\n') + partial1) == partial1
  {
    SplitOfTerminated(lines, partial1, '\n');
    SplitOfTerminated(lines, partial2, '\n');
    assert (lines + [partial1])[..|lines|] == lines;
    assert (lines + [partial2])[..|lines|] == lines;
  }
}

=== FILE: record_button.dfy ===
/** The record button (`src/components/RecordButton.tsx`): the `MM:SS`
    duration readout and the icon and caption chosen from the recorder's
    flags. */
module RecordButton {
  import opened Types
  import opened Strings
  import AudioStore

  /** Any padded number reads back as itself; it is two characters long
      exactly below 100. */
  lemma Pad2ReadsBack(n: nat)
    ensures AllDigits(Pad2(n)) && ParseDecimal(Pad2(n)) == n
    ensures |Pad2(n)| == 2 <==> n < 100
  {
    if n < 100 {
      Pad2Field(n);
    } else {
      DecimalLength(n);
      ParseDecimalInvertsDecimal(n);
      assert Pad2(n) == Decimal(n);
    }
  }

  /** `formatDuration(seconds)`: whole minutes and the remaining seconds,
      each padded to at least two digits, around a colon. */
  function FormatDuration(seconds: nat): (r: string)
    ensures |r| >= 5 && r[|r| - 3] == ':'
    ensures AllDigits(r[..|r| - 3]) && AllDigits(r[|r| - 2..])
    ensures ParseDecimal(r[|r| - 2..]) < 60
  {
    var mins := Pad2(seconds / 60);
    var secs := Pad2(seconds % 60);
    Pad2ReadsBack(seconds / 60);
    Pad2ReadsBack(seconds % 60);
    ColonFields(mins, secs);
    mins + ":" + secs
  }

  /** A colon between a field of two or more characters and a two-character
      field: both fields sit at fixed offsets from the end. */
  lemma ColonFields(a: string, b: string)
    requires |a| >= 2 && |b| == 2
    ensures var r := a + ":" + b;
            |r| == |a| + 3 && r[|r| - 3] == ':' && r[..|r| - 3] == a && r[|r| - 2..] == b
  {
  }

  /** A well-formed readout: digits, a colon, and two more digits. */
  predicate IsReadout(r: string) {
    |r| >= 5 && r[|r| - 3] == ':' && AllDigits(r[..|r| - 3]) && AllDigits(r[|r| - 2..])
  }

  /** How a reader takes a readout back to seconds: sixty per minute plus
      the seconds field. */
  function ReadDuration(r: string): nat
    requires IsReadout(r)
  {
    ParseDecimal(r[..|r| - 3]) * 60 + ParseDecimal(r[|r| - 2..])
  }

  /** The readout determines the duration: reading it back gives the
      number of seconds formatted. */
  lemma FormatDurationRoundTrip(seconds: nat)
    ensures IsReadout(FormatDuration(seconds))
    ensures ReadDuration(FormatDuration(seconds)) == seconds
  {
    var m, sec := seconds / 60, seconds % 60;
    assert m * 60 + sec == seconds;
    Pad2ReadsBack(m);
    Pad2ReadsBack(sec);
    ColonFields(Pad2(m), Pad2(sec));
    assert FormatDuration(seconds) == Pad2(m) + ":" + Pad2(sec);
  }

  /** The readout is five characters for anything under 100 minutes, and
      the minutes field widens beyond that. */
  lemma FormatDurationWidth(seconds: nat)
    ensures |FormatDuration(seconds)| == 5 <==> seconds < 6000
  {
    Pad2ReadsBack(seconds / 60);
    Pad2ReadsBack(seconds % 60);
  }

  /** Two different durations never show the same readout. */
  lemma FormatDurationInjective(a: nat, b: nat)
    ensures a != b ==> FormatDuration(a) != FormatDuration(b)
  {
    FormatDurationRoundTrip(a);
    FormatDurationRoundTrip(b);
    if FormatDuration(a) == FormatDuration(b) {
      assert ReadDuration(FormatDuration(a)) == ReadDuration(FormatDuration(b));
    }
  }

  datatype Icon = MicIcon | PlayIcon | StopIcon

  /** What the button shows: its icon, its caption, and whether the
      duration readout is on screen. */
  datatype Face = Face(icon: Icon, caption: string, showsDuration: bool)

  /** The button's face for the recorder's two flags: the microphone
      whenever not recording, whatever `isPaused` says, and while recording
      play when paused and stop otherwise. */
  function ButtonFace(isRecording: bool, isPaused: bool): (f: Face)
    ensures f.showsDuration <==> isRecording
    ensures f.icon == MicIcon <==> !isRecording
    ensures f.icon == PlayIcon <==> isRecording && isPaused
    ensures f.icon == StopIcon <==> isRecording && !isPaused
    ensures f.icon == MicIcon <==> f.caption == "Tap to record"
    ensures f.icon == PlayIcon <==> f.caption == "Tap to resume"
    ensures f.icon == StopIcon <==> f.caption == "Tap to stop"
  {
    if !isRecording then Face(MicIcon, "Tap to record", false)
    else if isPaused then Face(PlayIcon, "Tap to resume", true)
    else Face(StopIcon, "Tap to stop", true)
  }

  /** Driven by the audio store, the button offers what the recorder can
      do next: after a successful start it offers stop, after a pause
      resume, and after a successful stop a new recording, with the
      readout hidden. */
  lemma FaceFollowsRecorder(s: AudioStore.AudioState, p: AudioStore.PermissionOutcome,
                            c: AudioStore.CreateOutcome, stop: AudioStore.StopOutcome, now: nat)
    ensures var t := AudioStore.StartRecording(s, p, c);
            c.Created? && (s.hasPermission || AudioStore.RequestPermission(s, p).granted) ==>
              ButtonFace(t.isRecording, t.isPaused) == Face(StopIcon, "Tap to stop", true)
    ensures var u := AudioStore.PauseRecording(s, AudioStore.Completed);
            s.isRecording && s.currentRecording.Some? ==>
              ButtonFace(u.isRecording, u.isPaused) == Face(PlayIcon, "Tap to resume", true)
    ensures var v := AudioStore.StopRecording(s, stop, now);
            v.recording.Some? ==> ButtonFace(v.state.isRecording, v.state.isPaused) == Face(MicIcon, "Tap to record", false)
  {
  }
}

=== FILE: strings.dfy ===
/** String helpers shared by the stores and components: decimal rendering
    of numbers (`n.toString()`), its inverse, `padStart(2, '0')`,
    `startsWith`, and splitting on / joining with a one-character
    separator (`split` and `join`). */
module Strings {

  predicate IsDigit(c: char) {
    '0' <= c <= '9'
  }

  predicate AllDigits(s: string) {
    forall i :: 0 <= i < |s| ==> IsDigit(s[i])
  }

  function DigitChar(d: nat): (c: char)
    requires d < 10
    ensures IsDigit(c)
  {
    (48 + d) as char
  }

  function DigitValue(c: char): (d: nat)
    requires IsDigit(c)
    ensures d < 10
  {
    (c as int) - 48
  }

  /** Decimal rendering of a non-negative integer, without leading zeros. */
  function Decimal(n: nat): (s: string)
    ensures 1 <= |s|
    ensures AllDigits(s)
    ensures s[0] == '0' ==> n == 0
  {
    if n < 10 then [DigitChar(n)] else Decimal(n / 10) + [DigitChar(n % 10)]
  }

  /** Reads a string of digits back as a number; leading zeros are allowed. */
  function ParseDecimal(s: string): nat
    requires AllDigits(s)
  {
    if s == [] then 0 else ParseDecimal(s[..|s| - 1]) * 10 + DigitValue(s[|s| - 1])
  }

  lemma {:induction false} ParseDecimalInvertsDecimal(n: nat)
    ensures ParseDecimal(Decimal(n)) == n
  {
    if n >= 10 {
      var s := Decimal(n);
      assert s[..|s| - 1] == Decimal(n / 10);
      ParseDecimalInvertsDecimal(n / 10);
    }
  }

  /** Different numbers never render alike. */
  lemma DecimalInjective(a: nat, b: nat)
    requires Decimal(a) == Decimal(b)
    ensures a == b
  {
    ParseDecimalInvertsDecimal(a);
    ParseDecimalInvertsDecimal(b);
  }

  /** A rendering is one digit long below 10 and two digits long below 100. */
  lemma {:induction false} DecimalLength(n: nat)
    ensures |Decimal(n)| == 1 <==> n < 10
    ensures |Decimal(n)| <= 2 <==> n < 100
  {
    if n >= 10 {
      DecimalLength(n / 10);
    }
  }

  /** `x.toString()` for any integer. */
  function IntToString(x: int): (s: string)
    ensures x >= 0 ==> s == Decimal(x)
    ensures x < 0 ==> s == "-" + Decimal(-x)
  {
    if x < 0 then "-" + Decimal(-x) else Decimal(x)
  }

  /** Different integers never render alike. */
  lemma IntToStringInjective(a: int, b: int)
    requires IntToString(a) == IntToString(b)
    ensures a == b
  {
    if a >= 0 && b >= 0 {
      DecimalInjective(a, b);
    } else if a < 0 && b < 0 {
      assert Decimal(-a) == IntToString(a)[1..];
      DecimalInjective(-a, -b);
    }
  }

  /** `s.padStart(2, '0')`. */
  function PadStart2(s: string): (r: string)
    ensures |r| == if |s| < 2 then 2 else |s|
    ensures r[|r| - |s|..] == s
    ensures forall i :: 0 <= i < |r| - |s| ==> r[i] == '0'
  {
    if |s| == 0 then "00" else if |s| == 1 then "0" + s else s
  }

  /** `String(x).padStart(2, '0')`, the two-digit field of a date or a clock. */
  function Pad2(x: int): string {
    PadStart2(IntToString(x))
  }

  /** Below 100, the padded field is exactly two digits and reads back as the number. */
  lemma Pad2Field(n: nat)
    requires n < 100
    ensures |Pad2(n)| == 2 && AllDigits(Pad2(n))
    ensures ParseDecimal(Pad2(n)) == n
  {
    DecimalLength(n);
    ParseDecimalInvertsDecimal(n);
    if n < 10 {
      assert Pad2(n) == ['0', DigitChar(n)];
      assert Pad2(n)[..1] == "0";
    }
  }

  /** `s.startsWith(prefix)`. */
  predicate StartsWith(s: string, prefix: string) {
    |prefix| <= |s| && s[..|prefix|] == prefix
  }

  /** The concatenation of a sequence of strings. */
  function Concat(parts: seq<string>): string {
    if parts == [] then "" else Concat(parts[..|parts| - 1]) + parts[|parts| - 1]
  }

  /** `s.split(sep)` for a one-character separator: the pieces between separators. */
  function Split(s: string, sep: char): (parts: seq<string>)
    ensures |parts| >= 1
    ensures forall i :: 0 <= i < |parts| ==> sep !in parts[i]
  {
    if s == [] then [""]
    else
      var rest := Split(s[1..], sep);
      if s[0] == sep then [""] + rest else [[s[0]] + rest[0]] + rest[1..]
  }

  /** Every piece followed by the separator, concatenated. */
  function Terminated(lines: seq<string>, sep: char): string {
    if lines == [] then "" else lines[0] + [sep] + Terminated(lines[1..], sep)
  }

  /** `parts.join(sep)`; the empty sequence joins to the empty string. */
  function Join(parts: seq<string>, sep: char): string {
    if |parts| == 0 then ""
    else if |parts| == 1 then parts[0]
    else parts[0] + [sep] + Join(parts[1..], sep)
  }

  lemma {:induction false} TerminatedAppend(a: seq<string>, b: seq<string>, sep: char)
    ensures Terminated(a + b, sep) == Terminated(a, sep) + Terminated(b, sep)
  {
    if a != [] {
      assert (a + b)[1..] == a[1..] + b;
      TerminatedAppend(a[1..], b, sep);
    } else {
      assert a + b == b;
    }
  }

  /** Joining a non-empty sequence is terminating all but its last piece. */
  lemma {:induction false} JoinIsTerminatedPlusLast(parts: seq<string>, sep: char)
    requires |parts| >= 1
    ensures Join(parts, sep) == Terminated(parts[..|parts| - 1], sep) + parts[|parts| - 1]
  {
    if |parts| > 1 {
      JoinIsTerminatedPlusLast(parts[1..], sep);
      assert parts[..|parts| - 1][1..] == parts[1..][..|parts[1..]| - 1];
    }
  }

  /** Splitting loses nothing: the complete pieces, each re-terminated,
      followed by the final (unterminated) piece give back the input. */
  lemma {:induction false} SplitTerminated(s: string, sep: char)
    ensures var p := Split(s, sep); Terminated(p[..|p| - 1], sep) + p[|p| - 1] == s
  {
    if s != [] {
      var rest := Split(s[1..], sep);
      SplitTerminated(s[1..], sep);
      assert s == [s[0]] + s[1..];
      if s[0] == sep {
        ReassembleAfterSeparator(rest, sep, s[1..]);
      } else {
        ReassembleAfterChar(s[0], rest, sep, s[1..]);
      }
    }
  }

  lemma TerminatedCons(first: string, rest: seq<string>, sep: char)
    ensures Terminated([first] + rest, sep) == first + [sep] + Terminated(rest, sep)
  {
    assert ([first] + rest)[1..] == rest;
  }

  /** A leading separator adds an empty first piece. */
  lemma ReassembleAfterSeparator(rest: seq<string>, sep: char, t: string)
    requires |rest| >= 1 && Terminated(rest[..|rest| - 1], sep) + rest[|rest| - 1] == t
    ensures var p := [""] + rest; Terminated(p[..|p| - 1], sep) + p[|p| - 1] == [sep] + t
  {
    var p := [""] + rest;
    assert p[..|p| - 1] == [""] + rest[..|rest| - 1];
    TerminatedCons("", rest[..|rest| - 1], sep);
  }

  /** Any other leading character joins the first piece. */
  lemma ReassembleAfterChar(c: char, rest: seq<string>, sep: char, t: string)
    requires |rest| >= 1 && Terminated(rest[..|rest| - 1], sep) + rest[|rest| - 1] == t
    ensures var p := [[c] + rest[0]] + rest[1..]; Terminated(p[..|p| - 1], sep) + p[|p| - 1] == [c] + t
  {
    var p := [[c] + rest[0]] + rest[1..];
    if |rest| == 1 {
      assert p[..|p| - 1] == [] && rest[..|rest| - 1] == [];
    } else {
      var mid := rest[1..|rest| - 1];
      assert p[..|p| - 1] == [[c] + rest[0]] + mid;
      assert rest[..|rest| - 1] == [rest[0]] + mid;
      TerminatedCons([c] + rest[0], mid, sep);
      TerminatedCons(rest[0], mid, sep);
      assert p[|p| - 1] == rest[|rest| - 1];
    }
  }

  /** A piece free of the separator splits to itself. */
  lemma {:induction false} SplitWithoutSeparator(s: string, sep: char)
    requires sep !in s
    ensures Split(s, sep) == [s]
  {
    if s != [] {
      SplitWithoutSeparator(s[1..], sep);
      assert s == [s[0]] + s[1..];
    }
  }

  lemma {:induction false} SplitAfterPiece(piece: string, rest: string, sep: char)
    requires sep !in piece
    ensures Split(piece + [sep] + rest, sep) == [piece] + Split(rest, sep)
  {
    var s := piece + [sep] + rest;
    if piece == [] {
      assert s[0] == sep && s[1..] == rest;
    } else {
      assert s[0] == piece[0];
      assert s[1..] == piece[1..] + [sep] + rest;
      SplitAfterPiece(piece[1..], rest, sep);
      assert [piece[0]] + piece[1..] == piece;
    }
  }

  /** Splitting undoes termination: pieces free of the separator come back
      unchanged, and the unterminated tail comes back as the last piece. */
  lemma {:induction false} SplitOfTerminated(lines: seq<string>, tail: string, sep: char)
    requires forall i :: 0 <= i < |lines| ==> sep !in lines[i]
    requires sep !in tail
    ensures Split(Terminated(lines, sep) + tail, sep) == lines + [tail]
  {
    if lines == [] {
      SplitWithoutSeparator(tail, sep);
      assert Terminated(lines, sep) + tail == tail;
    } else {
      SplitOfTerminated(lines[1..], tail, sep);
      assert Terminated(lines, sep) + tail == lines[0] + [sep] + (Terminated(lines[1..], sep) + tail);
      SplitAfterPiece(lines[0], Terminated(lines[1..], sep) + tail, sep);
      assert lines == [lines[0]] + lines[1..];
    }
  }

  /** Joining one more piece adds the separator and that piece. */
  lemma JoinAppend(parts: seq<string>, p: string, sep: char)
    requires parts != []
    ensures Join(parts + [p], sep) == Join(parts, sep) + [sep] + p
  {
    var n := |parts|;
    JoinIsTerminatedPlusLast(parts + [p], sep);
    JoinIsTerminatedPlusLast(parts, sep);
    assert (parts + [p])[..n] == parts[..n - 1] + [parts[n - 1]];
    TerminatedAppend(parts[..n - 1], [parts[n - 1]], sep);
    assert Terminated([parts[n - 1]], sep) == parts[n - 1] + [sep];
  }

  /** `s.split(sep).join(sep) == s`. */
  lemma JoinSplit(s: string, sep: char)
    ensures Join(Split(s, sep), sep) == s
  {
    SplitTerminated(s, sep);
    JoinIsTerminatedPlusLast(Split(s, sep), sep);
  }

  /** `parts.join(sep).split(sep) == parts` when no piece holds the separator. */
  lemma SplitJoin(parts: seq<string>, sep: char)
    requires |parts| >= 1
    requires forall i :: 0 <= i < |parts| ==> sep !in parts[i]
    ensures Split(Join(parts, sep), sep) == parts
  {
    JoinIsTerminatedPlusLast(parts, sep);
    SplitOfTerminated(parts[..|parts| - 1], parts[|parts| - 1], sep);
    assert parts[..|parts| - 1] + [parts[|parts| - 1]] == parts;
  }
}

=== FILE: types.dfy ===
/** Shared value types of the LifeOS mobile client: the wrappers used for
    optional and failing results, values thrown by foreign calls, and the
    records of `src/types/index.ts`. */
module Types {

  /** An optional value; `None` stands for `undefined`/`null`. */
  datatype Option<+T> = None | Some(value: T) {
    function GetOr(default: T): T {
      match this
      case Some(v) => v
      case None => default
    }
  }

  /** The outcome of an operation that may throw or signal an error. */
  datatype Result<+T, +E> = Success(value: T) | Failure(error: E)

  /** A value thrown by a foreign call: an `Error` instance with its
      message, or some other value. */
  datatype Thrown = ErrorObject(message: string) | OtherValue

  /** `err instanceof Error ? err.message : fallback`. */
  function MessageOf(t: Thrown, fallback: string): string {
    match t
    case ErrorObject(m) => m
    case OtherValue => fallback
  }

  datatype Role = User | Assistant | System

  /** The role's wire spelling. */
  function RoleName(r: Role): string {
    match r
    case User => "user"
    case Assistant => "assistant"
    case System => "system"
  }

  /** A chat message; `timestamp` is the creation time in milliseconds. */
  datatype Message = Message(id: string, role: Role, content: string, timestamp: int)

  /** A finished audio recording; `duration` in whole seconds. */
  datatype Recording = Recording(id: string, uri: string, duration: nat, createdAt: int,
                                 transcription: Option<string>)
}
